=== FILE: README.md ===
# Medication-safety assistant: the request and response layer

The application is a React front end over four hosted language-model flows. The flows are:

- drug-interaction analysis
- age-specific dosage
- alternative medications
- drug extraction from free text

This project models the layer between the forms and the flows, and proves its properties in Dafny:

- **Forms.** The zod schemas of the patient-profile form and the four tool forms, restated as plain checks. Errors are kept per field, as react-hook-form shows them.
- **Patient sentence.** `formatPatientDetails` renders the session's patient profile as one sentence. The interaction tool and the alternatives tool each contain a copy. The two copies are textually identical, so the function is defined once (`PatientDetails`).
- **Medication list.** The alternatives tool splits its comma-separated medication text and trims each piece. The alternatives prompt renders the list back with `", "` between items (`{{#each}}` with `{{#unless @last}}`).
- **Server actions.** Each of the four actions turns "the flow returned `v`" or "the flow threw" into `{success: true, data: v}` or `{success: false, error}`. The error is a fixed message.
- **Submit step.** Each tool clears its result and shows loading. It then stores the data or raises a toast carrying the action's error. Invalid values send nothing. If the call to the action itself rejects, the tool stays loading.
- **Dosage defaults.** The dosage tool takes its defaults from the session profile and resets to them whenever that profile changes.

Modules, one file each:

- `Wrappers`: `Option` and `Result`.
- `JsString`: JavaScript's `trim`, `split` on one character, `join`, UTF-16 `length`, and the decimal text of an integer.
- `Forms`: zod checks and number coercion.
- `Profile`: the profile record and the profile form.
- `PatientDetails`: the patient sentence.
- `Flows`: the flow records, the pass-through façades, and the prompt's list rendering.
- `Actions`: the four server actions.
- `ToolState`: the shared submit step.
- `InteractionTool`, `AlternativesTool`, `DosageTool`, `ExtractionTool`: one per tool.

Each language-model flow is a function parameter from its input record to `Returned(output)` or `Thrown(detail)`. Everything else is pure functions over immutable records.

Modelling choices:

- **Profile age.** A saved profile's age is an integer. The session profile only ever comes from the validated profile form, whose schema demands an integer.
- **Weight text.** A weight may be fractional. Its text comes from a `showNumber` parameter, because JavaScript's number-to-text conversion of fractions is not modelled.
- **Numbers seen by zod.** These are `NaN` or a finite real.
- **Lengths.** zod measures `.min` in UTF-16 code units. A character above U+FFFF counts twice.
- **Whitespace.** `trim` removes the WhiteSpace and LineTerminator code points of the ECMAScript language specification (sections 12.2 and 12.3).

## Model

| member | source | states |
|---|---|---|
| JsString.TrimStart | src/components/alternative-medication-tool.tsx:69 | the result is a suffix of the input and does not begin with whitespace |
| JsString.TrimEnd | src/components/alternative-medication-tool.tsx:69 | the result is a prefix of the input and does not end with whitespace |
| JsString.Trim | src/components/alternative-medication-tool.tsx:69 | a trimmed medication name has whitespace at neither end |
| JsString.TrimStartDropsWhitespace | src/components/alternative-medication-tool.tsx:69 | everything trimStart removes is whitespace |
| JsString.TrimEndDropsWhitespace | src/components/alternative-medication-tool.tsx:69 | everything trimEnd removes is whitespace |
| JsString.TrimIsSlice | src/components/alternative-medication-tool.tsx:69 | the input is leading whitespace, then the trimmed text as a contiguous slice, then trailing whitespace |
| JsString.TrimOfPadded | src/components/alternative-medication-tool.tsx:69 | any text without whitespace at its ends, padded with any whitespace on both sides, trims back to that text |
| JsString.TrimOfTrimmed | src/components/alternative-medication-tool.tsx:69 | text with no whitespace at its ends is left unchanged by trim |
| JsString.TrimOfBlank | src/components/alternative-medication-tool.tsx:69 | a piece that is all whitespace trims to the empty text |
| JsString.TrimIdempotent | src/components/alternative-medication-tool.tsx:69 | trimming twice gives the same as trimming once |
| JsString.Split | src/components/alternative-medication-tool.tsx:69 | split on a comma gives one more piece than there are commas, and no piece contains a comma |
| JsString.SplitWithout | src/components/alternative-medication-tool.tsx:69 | text without the separator splits into itself alone |
| JsString.SplitAtFirst | src/components/alternative-medication-tool.tsx:69 | the text before the first separator is the first piece, and the rest splits independently |
| JsString.SplitOfBlanks | src/components/alternative-medication-tool.tsx:69 | a text of separators and whitespace splits into pieces that are all whitespace |
| JsString.SplitThenJoin | src/components/alternative-medication-tool.tsx:69 | joining the pieces of a split with the same separator rebuilds the original text |
| JsString.JoinThenSplit | src/components/alternative-medication-tool.tsx:69 | splitting separator-free items joined by the separator gives back exactly those items |
| JsString.JoinLength | src/components/alternative-medication-tool.tsx:48 | the joined text has the items' total length plus one separator between each pair of neighbours |
| JsString.JoinStartsWithFirst | src/components/alternative-medication-tool.tsx:48 | the joined text begins with the first item |
| JsString.JoinEndsWithLast | src/components/alternative-medication-tool.tsx:48 | the joined text ends with the last item, so no separator trails |
| JsString.JoinSnoc | src/components/alternative-medication-tool.tsx:48 | joining one more item appends the separator and that item |
| JsString.JoinConsHead | src/components/alternative-medication-tool.tsx:48 | a character prepended to the first item is prepended to the joined text |
| JsString.Utf16Length | src/components/text-extraction-tool.tsx:40 | a JavaScript string length lies between the number of characters and twice that, and is zero only for the empty text |
| JsString.NatToDecimal | src/components/alternative-medication-tool.tsx:43 | the decimal text of a number is non-empty digits, beginning with 0 only for zero |
| JsString.DecimalRoundTrip | src/components/alternative-medication-tool.tsx:43 | reading the decimal text of a number back gives the number |
| JsString.IntToString | src/components/alternative-medication-tool.tsx:43 | an interpolated integer is non-empty and starts with a minus sign exactly when it is negative |
| JsString.IntToStringReadsBack | src/components/alternative-medication-tool.tsx:43 | an interpolated integer is a minus sign exactly for negatives, then digits that read back as its magnitude |
| Forms.CheckMinLength | src/components/alternative-medication-tool.tsx:34-35 | a min-length check reports nothing iff the text has at least n UTF-16 code units, else its message under its own field only |
| Forms.CheckPositiveInteger | src/components/dosage-recommendation-tool.tsx:36 | no error iff the number is a positive integer; an integer that is not positive reports the schema's message |
| Forms.CheckPositive | src/components/patient-profile-form.tsx:39 | no error iff the number is positive, fractions included |
| Forms.NonEmptyIsMinLengthOne | src/components/drug-interaction-tool.tsx:33 | `min(1)` rejects exactly the empty text |
| Forms.Coerce | src/components/dosage-recommendation-tool.tsx:36 | `Number()` of undefined is NaN, a number is kept as it is, and blank text is 0 |
| Forms.CoerceReadsDigits | src/components/dosage-recommendation-tool.tsx:36 | number coercion reads whitespace-padded decimal digits as their value, for values up to 2^53 that a double holds exactly |
| Forms.CoerceBlank | src/components/dosage-recommendation-tool.tsx:36 | blank text coerces to 0 and an undefined value to NaN |
| Profile.ParseSex | src/lib/types.ts:3 | a text parses to a sex iff it is that sex's literal |
| Profile.ParseRenal | src/lib/types.ts:5 | a text parses to a renal function iff it is that value's literal |
| Profile.CheckOptional | src/components/patient-profile-form.tsx:38-40 | an optional field errs iff it is present and fails its check, and only under its own name |
| Profile.AgeErrors | src/components/patient-profile-form.tsx:37 | the age errs iff it is present and not a positive integer |
| Profile.WeightErrors | src/components/patient-profile-form.tsx:39 | the weight errs iff it is present and not positive |
| Profile.ProfileErrors | src/components/patient-profile-form.tsx:36-42 | each of age, sex, weight and renal function has an error iff it is rejected; other conditions never errs |
| Profile.Accepted | src/components/patient-profile-form.tsx:36-42 | accepted values become a valid profile that carries exactly those values |
| Profile.ValidateProfile | src/components/patient-profile-form.tsx:36-42 | accepted iff every present field passes; on success a valid profile carrying the values; on failure an error exactly for each rejected field |
| Profile.FormValuesOf | src/components/patient-profile-form.tsx:53-59 | the form opens empty without a profile, and otherwise pre-filled with exactly the profile's values, as text for sex and renal function |
| Profile.ReopenThenSave | src/components/patient-profile-form.tsx:52-63 | saving the form unedited, opened on a valid profile, gives that profile back, or the empty profile when there was none |
| Profile.NumberInputChange | src/components/patient-profile-form.tsx:89 | an emptied number input stores undefined, any other input its numeric value |
| Profile.SaveProfile | src/components/patient-profile-form.tsx:62-68 | the session profile becomes the validated values when the schema accepts, and is untouched otherwise |
| Profile.SaveKeepsProfileValid | src/components/patient-profile-form.tsx:62-63 | saving never makes the session profile invalid |
| Profile.ClearedAgeIsUndefined | src/components/patient-profile-form.tsx:89 | clearing the age and saving leaves the age undefined, never 0 |
| PatientDetails.AllEmpty | src/components/alternative-medication-tool.tsx:39 | no contract: every field is undefined, or the empty text for other conditions; used by `FormatPatientDetails` and `NoProfileSendsFallback` |
| PatientDetails.Present | src/components/alternative-medication-tool.tsx:43-47 | no contract: the truthiness of each `if (profile.x)`, so 0, the empty text and undefined are falsy; characterised by `PresentFieldsSpec` and `ValidProfilePresence` |
| PatientDetails.Entry | src/components/alternative-medication-tool.tsx:43-47 | no contract: label, `": "`, the value's text and the unit suffix of each template literal; pinned by `AgeEntryExample`, `ModerateRenalEntryExample` and `WeightAndNormalRenalExample` |
| PatientDetails.Details | src/components/alternative-medication-tool.tsx:42-47 | no contract: the five conditional pushes; characterised by `DetailsFollowFieldOrder` and `DetailsInFieldOrder` |
| JsString.Join | src/components/alternative-medication-tool.tsx:48 | no contract: `join` with a separator between neighbours only; characterised by `JoinLength`, `SplitThenJoin` and `JoinThenSplit` |
| PatientDetails.FormatPatientDetails | src/components/alternative-medication-tool.tsx:38-49 | never empty; the fallback sentence iff the profile is missing or has no truthy field; otherwise the entries joined by ", " |
| PatientDetails.EntriesOfCons | src/components/alternative-medication-tool.tsx:42-47 | each conditional push adds its field's entry, if any, ahead of the later fields' entries |
| PatientDetails.DetailsFollowFieldOrder | src/components/alternative-medication-tool.tsx:42-47 | the five pushes filter the fixed field order by truthiness |
| PatientDetails.PresentFieldsSpec | src/components/alternative-medication-tool.tsx:43-47 | a field is kept iff it is listed and truthy, and the order is preserved |
| PatientDetails.EntriesOfPresentFields | src/components/alternative-medication-tool.tsx:43-47 | the i-th entry is the entry of the i-th truthy field |
| PatientDetails.FieldOrderIsOrderedAndComplete | src/components/alternative-medication-tool.tsx:43-47 | Age, Sex, Weight, Renal Function, Other Conditions are each listed once, in that order |
| PatientDetails.DetailsInFieldOrder | src/components/alternative-medication-tool.tsx:42-47 | the details list every truthy field exactly once, in the fixed order, each as its own entry |
| PatientDetails.HasDetailsIffSomeEntry | src/components/alternative-medication-tool.tsx:43-48 | the details array is non-empty iff some field is truthy |
| PatientDetails.EntryIsNotFallbackPrefix | src/components/alternative-medication-tool.tsx:40-47 | every shown entry is non-empty and starts with a different character from the fallback sentence |
| PatientDetails.JoinedDetailsShape | src/components/alternative-medication-tool.tsx:48 | with a truthy field, the sentence is not the fallback; it begins with the first entry, ends with the last, and has the joined length |
| PatientDetails.ValidProfilePresence | src/components/drug-interaction-tool.tsx:41-45 | for a profile the profile form accepted, a field shows iff it is set; other conditions must also be non-empty |
| PatientDetails.FormatOfTwoEntries | src/components/alternative-medication-tool.tsx:48 | two entries read as the first, ", ", then the second |
| PatientDetails.AgeEntryExample | src/components/alternative-medication-tool.tsx:43 | age 65 reads `Age: 65` |
| PatientDetails.ModerateRenalEntryExample | src/components/alternative-medication-tool.tsx:46 | a moderate renal function reads `Renal Function: moderate impairment` |
| PatientDetails.AgeAndRenalDetails | src/components/alternative-medication-tool.tsx:43-47 | age 65 with moderate renal function gives exactly the age entry and then the renal entry |
| PatientDetails.AgeAndRenalExample | src/components/alternative-medication-tool.tsx:43-48 | that profile reads `Age: 65`, ", ", `Renal Function: moderate impairment` |
| PatientDetails.WeightAndNormalRenalExample | src/components/alternative-medication-tool.tsx:45-46 | the weight is suffixed ` kg`, and a normal renal function reads `normal impairment` |
| PatientDetails.FalsyValuesExample | src/components/alternative-medication-tool.tsx:39-48 | age 0, weight 0 and empty conditions are left out, giving the fallback, as does the empty profile |
| Flows.RenderMedications | src/ai/flows/alternative-medication.ts:52 | the rendered list is the items joined by ", "; a single item renders alone; the text ends with the last item |
| Actions.Envelope | src/app/actions.ts:21-27 | exactly one of data and error; success iff the flow returned; the value unchanged; otherwise the given message |
| Actions.GetDrugInteractionReport | src/app/actions.ts:20-28 | success with the flow's report iff the flow returned, else `Failed to analyze drug interactions.` |
| Actions.GetDosageRecommendation | src/app/actions.ts:30-41 | success with the flow's recommendation iff the flow returned, else `Failed to get dosage recommendation.` |
| Actions.GetAlternativeMedication | src/app/actions.ts:43-56 | success with the flow's suggestions iff the flow returned, else `Failed to suggest alternative medications.` |
| Actions.GetExtractedDrugInfo | src/app/actions.ts:58-68 | success with the flow's list iff the flow returned, else `Failed to extract drug information.` |
| Actions.FailureHidesDetail | src/app/actions.ts:20-68 | two failing calls of the same action give the same response, whatever was thrown |
| Actions.FailureMessagesDistinct | src/app/actions.ts:20-68 | the four failure messages are non-empty and pairwise different |
| ToolState.BeginSubmit | src/components/text-extraction-tool.tsx:54-55 | before the call, loading is on and the previous result is cleared |
| ToolState.FinishSubmit | src/components/text-extraction-tool.tsx:59-69 | after the call, loading is off; data is stored on success with data, otherwise one toast carries the error |
| ToolState.Sent | src/components/text-extraction-tool.tsx:53-70 | a sent request: pending shows loading with no result; afterwards the result is the response's data, and a toast with the error is added exactly on failure |
| ToolState.CallRejected | src/components/text-extraction-tool.tsx:54-59 | when the call to the server action itself rejects, the tool stays loading with no result and no new toast, since nothing on the client catches the rejection |
| ToolState.FirstSubmissionSettles | src/components/text-extraction-tool.tsx:44-69 | from the initial state, a delivered response turns loading off and leaves either the data and no toast, or no result and exactly one failure toast |
| ToolState.Refused | src/components/text-extraction-tool.tsx:82 | values the schema refuses send nothing and change nothing |
| InteractionTool.ValidateInteraction | src/components/drug-interaction-tool.tsx:32-34 | accepted iff the drug list is non-empty, kept as typed; otherwise its message under `drugList` |
| InteractionTool.InteractionRequest | src/components/drug-interaction-tool.tsx:63-68 | the request carries the drug list as typed and a non-empty patient sentence, which is the fallback iff the profile shows nothing |
| InteractionTool.SubmitInteraction | src/components/drug-interaction-tool.tsx:59-81 | sends iff the drug list is non-empty, with the patient sentence and the drug list verbatim; stores the report or adds the failure toast |
| InteractionTool.NoProfileSendsFallback | src/components/drug-interaction-tool.tsx:37-38 | a missing or all-empty profile sends the fallback sentence |
| AlternativesTool.ValidateAlternatives | src/components/alternative-medication-tool.tsx:33-36 | accepted iff both fields are non-empty; each empty field reports its own message |
| AlternativesTool.MedicationList | src/components/alternative-medication-tool.tsx:69 | one name per comma plus one; no name has a comma or whitespace at its ends |
| AlternativesTool.MedicationListIsTrimmedPieces | src/components/alternative-medication-tool.tsx:69 | each name is the trimmed text between neighbouring commas, and those pieces rebuild the typed text |
| AlternativesTool.MedicationListJoinsBack | src/components/alternative-medication-tool.tsx:69 | when no piece has whitespace at its ends, the names joined by commas are the typed text |
| AlternativesTool.NamesSplitBack | src/components/alternative-medication-tool.tsx:69 | trimmed comma-free names joined by commas split back into those names |
| AlternativesTool.SeparatorsAndBlanksPassValidation | src/components/alternative-medication-tool.tsx:69 | any non-empty text of commas and whitespace passes the schema, yet every name it yields is empty |
| AlternativesTool.BlankPieceIsKept | src/components/alternative-medication-tool.tsx:69 | whitespace between two commas yields an empty name, which is kept |
| AlternativesTool.SeparatorOnlyPassesValidation | src/components/alternative-medication-tool.tsx:69 | a lone comma passes the schema but yields two empty names |
| AlternativesTool.AlternativesRequest | src/components/alternative-medication-tool.tsx:65-71 | the request carries the details as typed, a non-empty patient sentence (the fallback iff the profile shows nothing), and one trimmed comma-free name per comma plus one |
| AlternativesTool.SubmitAlternatives | src/components/alternative-medication-tool.tsx:61-84 | sends iff both fields are non-empty, with the patient sentence, the split list and the details unchanged; stores the suggestions or adds the failure toast |
| DosageTool.ValidateDosage | src/components/dosage-recommendation-tool.tsx:34-39 | accepted iff drug name non-empty, age coerces to a positive integer and renal function is one of the four; the request carries those values; each failing field reports |
| DosageTool.DosageDefaults | src/components/dosage-recommendation-tool.tsx:48-53 | no drug name; the profile's age iff it is truthy; the profile's renal function, or `normal` when the profile or its renal function is missing; the profile's other conditions, or the empty text when missing |
| DosageTool.ResetForProfile | src/components/dosage-recommendation-tool.tsx:56-63 | a profile change clears the drug name and sets a valid renal function, discarding a typed name |
| DosageTool.ResetForgetsTypedValues | src/components/dosage-recommendation-tool.tsx:48-62 | the reset ignores what was typed and equals the mount defaults |
| DosageTool.DefaultsNeedADrugName | src/components/dosage-recommendation-tool.tsx:49 | the defaults alone never pass the schema |
| DosageTool.DefaultsWithSavedAge | src/components/dosage-recommendation-tool.tsx:48-53 | with a saved age, typing a drug name suffices, and the request carries the profile's age, renal function and conditions |
| DosageTool.DefaultsWithoutAge | src/components/dosage-recommendation-tool.tsx:50 | without a saved age, the age field is refused with zod's own message |
| DosageTool.ClearedAgeIsNotPositive | src/components/dosage-recommendation-tool.tsx:36 | an emptied age input is refused with `Age must be a positive number.` |
| DosageTool.TypedAgeReachesRequest | src/components/dosage-recommendation-tool.tsx:36 | a typed positive whole age up to 2^53 reaches the request as that number |
| DosageTool.SubmitDosage | src/components/dosage-recommendation-tool.tsx:65-81 | sends iff the schema accepts, and the request is exactly the validated values, the age as the number the input coerced to; stores the recommendation or adds the failure toast |
| ExtractionTool.ValidateExtraction | src/components/text-extraction-tool.tsx:39-41 | accepted iff the text has at least ten UTF-16 code units; otherwise its message |
| ExtractionTool.TextLengthBounds | src/components/text-extraction-tool.tsx:40 | ten characters always pass, fewer than five never do |
| ExtractionTool.SubmitExtraction | src/components/text-extraction-tool.tsx:53-70 | sends iff the text is long enough, unchanged; stores the list or adds the failure toast |
| ExtractionTool.ViewOf | src/components/text-extraction-tool.tsx:127-156 | no card iff no result; the "nothing found" row iff the result is empty; otherwise one row per drug |
| ExtractionTool.EmptyExtractionIsNotAnError | src/components/text-extraction-tool.tsx:61-62 | an empty extraction is stored, raises no toast, and shows the "nothing found" row |

## Left out

- ToolState.Sent: assumes that the call to the server action delivers a response. A rejected call, from a network failure or a server redeployed since the page loaded, is modelled only by `ToolState.CallRejected`. The four tools' submit steps do not take that outcome as a parameter, so their contracts do not cover it.
- Language-model calls: the prompts, `definePrompt`/`defineFlow`, and genkit's validation of model output. A flow is a parameter returning `Returned(output)` or `Thrown(detail)`, and the thrown detail is never observable.
- Flows.AnalyzeDrugInteractions, Flows.GetAgeSpecificDosage, Flows.SuggestAlternativeMedication, Flows.ExtractDrugInformation: these pass-through façades carry no contract of their own. That they return the flow's output unchanged is stated through the action contracts.
- PatientDetails.ValueText: the text of a weight comes from the `showNumber` parameter. JavaScript's number-to-text conversion of fractional values is floating-point formatting and is not modelled.
- JsString.IntToString: ages of 1e21 and above, which JavaScript prints in exponent form, are printed in plain digits.
- Forms.Coerce: `Number()` of text other than blanks and decimal digits up to 2^53 comes from the `parseNumeric` parameter. Floating-point parsing is not modelled. That covers fractions, exponents, junk, and longer digit texts, which a double rounds or turns into Infinity.
- Infinities are not modelled. A profile-form number is whatever `valueAsNumber` reports, `NaN` included, and the schema refuses `NaN` (`AgeAccepted`, `WeightAccepted`).
- zod's built-in error texts are not modelled. The model records `None` where zod's own wording is shown.
- Toast rendering, `console.error` logging, React hooks, and async timing are not modelled. The tool state records the toasts raised and the loading flag before and after the call.
- The page's navigation, the dashboard, and `src/ai/dev.ts` are not modelled. They only render or load configuration.
- The result cards of the interaction, dosage and alternatives tools are not modelled. Only the extraction tool's card distinguishes an empty result, so only that card is modelled.

=== FILE: actions.dfy ===
/**
 * The four server actions: each calls its flow's façade inside a
 * try/catch and turns the outcome into a plain response object.  A thrown
 * error is logged and replaced by a fixed, operation-specific message.
 */
module Actions {
  import opened Wrappers
  import opened Flows

  /** The object an action returns: `{success: true, data}` or `{success: false, error}`. */
  datatype ActionResponse<+T> = ActionResponse(success: bool, data: Option<T>, error: Option<string>)

  /** Exactly one of `data` and `error` is present, and `success` says which. */
  predicate WellFormed<T>(r: ActionResponse<T>) {
    && (r.success <==> r.data.Some?)
    && (r.data.Some? <==> r.error.None?)
  }

  const InteractionFailure := "Failed to analyze drug interactions."

  const DosageFailure := "Failed to get dosage recommendation."

  const AlternativesFailure := "Failed to suggest alternative medications."

  const ExtractionFailure := "Failed to extract drug information."

  /**
   * The try/catch every action wraps around its façade call: a returned
   * value becomes the data unchanged; a thrown error, whatever it says,
   * becomes the fixed message.
   */
  function Envelope<T>(outcome: Outcome<T>, message: string): (r: ActionResponse<T>)
    ensures WellFormed(r)
    ensures r.success <==> outcome.Returned?
    ensures outcome.Returned? ==> r.data == Some(outcome.value)
    ensures outcome.Thrown? ==> r.error == Some(message)
  {
    match outcome
    case Returned(v) => ActionResponse(true, Some(v), None)
    case Thrown(_) => ActionResponse(false, None, Some(message))
  }

  /** `getDrugInteractionReport`. */
  function GetDrugInteractionReport(flow: InteractionFlow, input: DrugInteractionInput): (r: ActionResponse<DrugInteractionOutput>)
    ensures WellFormed(r)
    ensures r.success <==> flow(input).Returned?
    ensures r.success ==> r.data == Some(flow(input).value)
    ensures !r.success ==> r.error == Some(InteractionFailure)
  {
    Envelope(AnalyzeDrugInteractions(flow, input), InteractionFailure)
  }

  /** `getDosageRecommendation`. */
  function GetDosageRecommendation(flow: DosageFlow, input: AgeSpecificDosageInput): (r: ActionResponse<AgeSpecificDosageOutput>)
    ensures WellFormed(r)
    ensures r.success <==> flow(input).Returned?
    ensures r.success ==> r.data == Some(flow(input).value)
    ensures !r.success ==> r.error == Some(DosageFailure)
  {
    Envelope(GetAgeSpecificDosage(flow, input), DosageFailure)
  }

  /** `getAlternativeMedication`. */
  function GetAlternativeMedication(flow: AlternativesFlow, input: AlternativeMedicationInput): (r: ActionResponse<AlternativeMedicationOutput>)
    ensures WellFormed(r)
    ensures r.success <==> flow(input).Returned?
    ensures r.success ==> r.data == Some(flow(input).value)
    ensures !r.success ==> r.error == Some(AlternativesFailure)
  {
    Envelope(SuggestAlternativeMedication(flow, input), AlternativesFailure)
  }

  /** `getExtractedDrugInfo`. */
  function GetExtractedDrugInfo(flow: ExtractionFlow, input: ExtractDrugInformationInput): (r: ActionResponse<ExtractDrugInformationOutput>)
    ensures WellFormed(r)
    ensures r.success <==> flow(input).Returned?
    ensures r.success ==> r.data == Some(flow(input).value)
    ensures !r.success ==> r.error == Some(ExtractionFailure)
  {
    Envelope(ExtractDrugInformation(flow, input), ExtractionFailure)
  }

  /**
   * The user never sees what was thrown: two failing calls, whatever their
   * inputs and error texts, give the same response.
   */
  lemma FailureHidesDetail(
    f1: InteractionFlow, x1: DrugInteractionInput, f2: InteractionFlow, x2: DrugInteractionInput,
    g1: DosageFlow, y1: AgeSpecificDosageInput, g2: DosageFlow, y2: AgeSpecificDosageInput,
    h1: AlternativesFlow, z1: AlternativeMedicationInput, h2: AlternativesFlow, z2: AlternativeMedicationInput,
    k1: ExtractionFlow, w1: ExtractDrugInformationInput, k2: ExtractionFlow, w2: ExtractDrugInformationInput)
    requires f1(x1).Thrown? && f2(x2).Thrown?
    requires g1(y1).Thrown? && g2(y2).Thrown?
    requires h1(z1).Thrown? && h2(z2).Thrown?
    requires k1(w1).Thrown? && k2(w2).Thrown?
    ensures GetDrugInteractionReport(f1, x1) == GetDrugInteractionReport(f2, x2)
    ensures GetDosageRecommendation(g1, y1) == GetDosageRecommendation(g2, y2)
    ensures GetAlternativeMedication(h1, z1) == GetAlternativeMedication(h2, z2)
    ensures GetExtractedDrugInfo(k1, w1) == GetExtractedDrugInfo(k2, w2)
  {
  }

  /** The four messages are non-empty and tell the operations apart. */
  lemma FailureMessagesDistinct()
    ensures |InteractionFailure| > 0 && |DosageFailure| > 0 && |AlternativesFailure| > 0 && |ExtractionFailure| > 0
    ensures InteractionFailure != DosageFailure && InteractionFailure != AlternativesFailure
    ensures InteractionFailure != ExtractionFailure && DosageFailure != AlternativesFailure
    ensures DosageFailure != ExtractionFailure && AlternativesFailure != ExtractionFailure
  {
    assert InteractionFailure[10] == 'a' && DosageFailure[10] == 'g';
    assert AlternativesFailure[10] == 's' && ExtractionFailure[10] == 'e';
  }
}

=== FILE: alternatives_tool.dfy ===
/**
 * The alternative-medication tool: its schema, the medication list it
 * derives from comma-separated text, the request it builds and its submit
 * step.
 */
module AlternativesTool {
  import opened Wrappers
  import opened Forms
  import opened Profile
  import opened PatientDetails
  import opened Flows
  import opened Actions
  import opened ToolState
  import JsString

  datatype AlternativesFormValues = AlternativesFormValues(medications: string, interactionDetails: string)

  const MedicationsMessage := "Please enter at least one medication."

  const DetailsMessage := "Please describe the interaction or issue."

  const FailureTitle := "Suggestion Failed"

  /** `alternativeSchema`: both fields must be non-empty; each empty one is reported. */
  function ValidateAlternatives(v: AlternativesFormValues): (r: Result<AlternativesFormValues, FieldErrors>)
    ensures r.Success? <==> v.medications != "" && v.interactionDetails != ""
    ensures r.Success? ==> r.value == v
    ensures r.Failure? ==> ("medications" in r.error <==> v.medications == "")
    ensures r.Failure? ==> ("interactionDetails" in r.error <==> v.interactionDetails == "")
    ensures r.Failure? ==> r.error.Keys <= {"medications", "interactionDetails"}
    ensures r.Failure? && "medications" in r.error ==> r.error["medications"] == Some(MedicationsMessage)
    ensures r.Failure? && "interactionDetails" in r.error ==> r.error["interactionDetails"] == Some(DetailsMessage)
  {
    NonEmptyIsMinLengthOne(v.medications);
    NonEmptyIsMinLengthOne(v.interactionDetails);
    var medicationErrors := CheckMinLength("medications", v.medications, 1, MedicationsMessage);
    var detailErrors := CheckMinLength("interactionDetails", v.interactionDetails, 1, DetailsMessage);
    var errors := medicationErrors + detailErrors;
    assert "medications" in errors <==> medicationErrors != map[];
    assert "interactionDetails" in errors <==> detailErrors != map[];
    if errors == map[] then Success(v) else Failure(errors)
  }

  /**
   * `medications.split(',').map(s => s.trim())`: one entry per comma plus
   * one, empty entries kept, none with a comma in it or whitespace at
   * either end.
   */
  function MedicationList(text: string): (meds: seq<string>)
    ensures |meds| == JsString.Count(text, ',') + 1
    ensures forall i :: 0 <= i < |meds| ==> ',' !in meds[i] && JsString.IsTrimmed(meds[i])
  {
    var parts := JsString.Split(text, ',');
    seq(|parts|, i requires 0 <= i < |parts| => JsString.Trim(parts[i]))
  }

  /**
   * Each entry is the trimmed text between two commas: the untrimmed
   * pieces, joined by commas, give back the text typed.
   */
  lemma MedicationListIsTrimmedPieces(text: string)
    ensures var parts := JsString.Split(text, ',');
      && JsString.Join(parts, ",") == text
      && |MedicationList(text)| == |parts|
      && (forall i :: 0 <= i < |parts| ==> MedicationList(text)[i] == JsString.Trim(parts[i]))
  {
    JsString.SplitThenJoin(text, ',');
  }

  /**
   * When no piece has whitespace at its ends, the list joined by commas is
   * the text typed.
   */
  lemma MedicationListJoinsBack(text: string)
    requires forall i :: 0 <= i < |JsString.Split(text, ',')| ==> JsString.IsTrimmed(JsString.Split(text, ',')[i])
    ensures JsString.Join(MedicationList(text), ",") == text
  {
    var parts := JsString.Split(text, ',');
    MedicationListIsTrimmedPieces(text);
    forall i | 0 <= i < |parts|
      ensures MedicationList(text)[i] == parts[i]
    {
      JsString.TrimOfTrimmed(parts[i]);
    }
    assert MedicationList(text) == parts;
  }

  /** Comma-free trimmed names, joined by commas, split back into those names. */
  lemma NamesSplitBack(names: seq<string>)
    requires |names| >= 1
    requires forall i :: 0 <= i < |names| ==> ',' !in names[i] && JsString.IsTrimmed(names[i])
    ensures MedicationList(JsString.Join(names, ",")) == names
  {
    var joined := JsString.Join(names, ",");
    JsString.JoinThenSplit(names, ',');
    MedicationListIsTrimmedPieces(joined);
    forall i | 0 <= i < |names|
      ensures MedicationList(joined)[i] == names[i]
    {
      JsString.TrimOfTrimmed(names[i]);
    }
  }

  /**
   * The schema only asks for some text: a lone comma passes it, yet the
   * list it yields names no medication at all.
   */
  lemma SeparatorOnlyPassesValidation(v: AlternativesFormValues)
    requires v.medications == "," && v.interactionDetails != ""
    ensures ValidateAlternatives(v).Success?
    ensures MedicationList(v.medications) == ["", ""]
  {
    var parts := JsString.Split(",", ',');
    assert JsString.Split(","[1..], ',') == [""];
    assert parts == ["", ""];
    assert JsString.Trim("") == "";
  }

  /**
   * More generally, any text made only of commas and whitespace passes
   * the schema, yet every name it yields is empty.
   */
  lemma SeparatorsAndBlanksPassValidation(v: AlternativesFormValues)
    requires v.medications != "" && v.interactionDetails != ""
    requires forall i :: 0 <= i < |v.medications| ==> v.medications[i] == ',' || JsString.IsWhitespace(v.medications[i])
    ensures ValidateAlternatives(v).Success?
    ensures forall i :: 0 <= i < |MedicationList(v.medications)| ==> MedicationList(v.medications)[i] == ""
  {
    var parts := JsString.Split(v.medications, ',');
    JsString.SplitOfBlanks(v.medications, ',');
    MedicationListIsTrimmedPieces(v.medications);
    forall i | 0 <= i < |parts|
      ensures MedicationList(v.medications)[i] == ""
    {
      JsString.TrimOfBlank(parts[i]);
    }
  }

  /**
   * Empty pieces are kept: between two names, whitespace between two commas
   * becomes an empty name (`"a, ,b"` gives `a`, the empty text, `b`).
   */
  lemma BlankPieceIsKept(a: string, w: string, b: string)
    requires ',' !in a && ',' !in b && JsString.IsTrimmed(a) && JsString.IsTrimmed(b)
    requires JsString.AllWhitespace(w)
    ensures MedicationList(a + [','] + w + [','] + b) == [a, "", b]
  {
    BlankPieceMiddle(a, w, b);
    BlankPieceFirst(a, w, b);
    BlankPieceLast(a, w, b);
  }

  lemma BlankPieceMiddle(a: string, w: string, b: string)
    requires ',' !in a && ',' !in b && JsString.AllWhitespace(w)
    ensures |MedicationList(a + [','] + w + [','] + b)| == 3
    ensures MedicationList(a + [','] + w + [','] + b)[1] == ""
  {
    var text := a + [','] + w + [','] + b;
    SplitOfBlankPiece(a, w, b);
    var parts := JsString.Split(text, ',');
    assert parts[1] == w;
    MedicationListIsTrimmedPieces(text);
    var meds := MedicationList(text);
    assert meds[1] == JsString.Trim(w);
    JsString.TrimOfBlank(w);
  }

  lemma BlankPieceFirst(a: string, w: string, b: string)
    requires ',' !in a && ',' !in b && JsString.IsTrimmed(a) && JsString.AllWhitespace(w)
    ensures MedicationList(a + [','] + w + [','] + b)[0] == a
  {
    var text := a + [','] + w + [','] + b;
    SplitOfBlankPiece(a, w, b);
    MedicationListIsTrimmedPieces(text);
    JsString.TrimOfTrimmed(a);
  }

  lemma BlankPieceLast(a: string, w: string, b: string)
    requires ',' !in a && ',' !in b && JsString.IsTrimmed(b) && JsString.AllWhitespace(w)
    ensures |MedicationList(a + [','] + w + [','] + b)| == 3
    ensures MedicationList(a + [','] + w + [','] + b)[2] == b
  {
    var text := a + [','] + w + [','] + b;
    SplitOfBlankPiece(a, w, b);
    var parts := JsString.Split(text, ',');
    assert parts[2] == b;
    MedicationListIsTrimmedPieces(text);
    var meds := MedicationList(text);
    assert meds[2] == JsString.Trim(b);
    JsString.TrimOfTrimmed(b);
  }

  lemma SplitOfBlankPiece(a: string, w: string, b: string)
    requires ',' !in a && ',' !in b && JsString.AllWhitespace(w)
    ensures JsString.Split(a + [','] + w + [','] + b, ',') == [a, w, b]
  {
    var tail := w + [','] + b;
    assert a + [','] + w + [','] + b == a + [','] + tail;
    JsString.WhitespaceHasNo(w, ',');
    JsString.SplitAtFirst(a, tail, ',');
    JsString.SplitAtFirst(w, b, ',');
    JsString.SplitWithout(b, ',');
  }

  /** The request `onSubmit` sends: the patient sentence, the split list, the details as typed. */
  function AlternativesRequest(profile: Option<PatientProfile>, v: AlternativesFormValues, showNumber: real -> string): (r: AlternativeMedicationInput)
    ensures r.interactionDetails == v.interactionDetails
    ensures r.patientProfile != ""
    ensures r.patientProfile == Fallback <==> profile.None? || !HasDetails(profile.value)
    ensures |r.medications| == JsString.Count(v.medications, ',') + 1
    ensures forall i :: 0 <= i < |r.medications| ==> ',' !in r.medications[i] && JsString.IsTrimmed(r.medications[i])
  {
    AlternativeMedicationInput(FormatPatientDetails(profile, showNumber), MedicationList(v.medications), v.interactionDetails)
  }

  /**
   * Submitting the form: an empty field sends nothing and changes
   * nothing; otherwise the request carries the formatted profile, the
   * medication list and the details unchanged, and the flow's outcome
   * decides between stored suggestions and a toast.
   */
  function SubmitAlternatives(
    s: ToolState<AlternativeMedicationOutput>, profile: Option<PatientProfile>, v: AlternativesFormValues,
    flow: AlternativesFlow, showNumber: real -> string): (sub: Submission<AlternativeMedicationInput, AlternativeMedicationOutput>)
    ensures sub.request.Some? <==> v.medications != "" && v.interactionDetails != ""
    ensures sub.request.None? ==> sub.after == s
    ensures sub.request.Some? ==>
      && sub.request.value.patientProfile == FormatPatientDetails(profile, showNumber)
      && sub.request.value.medications == MedicationList(v.medications)
      && sub.request.value.interactionDetails == v.interactionDetails
    ensures sub.request.Some? ==> sub.pending.loading && sub.pending.result.None? && !sub.after.loading
    ensures sub.request.Some? && flow(sub.request.value).Returned? ==>
      sub.after.result == Some(flow(sub.request.value).value) && sub.after.toasts == s.toasts
    ensures sub.request.Some? && flow(sub.request.value).Thrown? ==>
      sub.after.result.None? && sub.after.toasts == s.toasts + [Toast(FailureTitle, Some(AlternativesFailure))]
  {
    match ValidateAlternatives(v)
    case Failure(_) => Refused(s)
    case Success(values) =>
      var request := AlternativesRequest(profile, values, showNumber);
      Sent(s, request, GetAlternativeMedication(flow, request), FailureTitle)
  }
}

=== FILE: dosage_tool.dfy ===
/**
 * The age-specific dosage tool: its schema, the defaults it takes from the
 * session profile, the reset it performs when the profile changes, and its
 * submit step.
 */
module DosageTool {
  import opened Wrappers
  import opened Forms
  import opened Profile
  import opened PatientDetails
  import opened Flows
  import opened Actions
  import opened ToolState
  import JsString

  /**
   * The dosage form's values; the age field is bound to its input with a
   * plain `{...field}`, so after an edit it holds the input's text.
   */
  datatype DosageFormValues = DosageFormValues(
    drugName: string,
    patientAge: FieldValue,
    renalFunction: string,
    otherConditions: Option<string>)

  const DrugNameMessage := "Drug name is required."

  const AgeMessage := "Age must be a positive number."

  const FailureTitle := "Recommendation Failed"

  /** The renal function the form falls back to. */
  const DefaultRenal := Normal

  /**
   * `dosageSchema`: a non-empty drug name, an age that coerces to a
   * positive whole number, a renal function among the four literals.  Every
   * failing field is reported; the accepted values become the request, the
   * age as the number it coerced to.
   */
  function ValidateDosage(v: DosageFormValues, parseNumeric: string -> JsNumber): (r: Result<AgeSpecificDosageInput, FieldErrors>)
    ensures r.Success? <==>
      v.drugName != "" && IsPositiveInteger(Coerce(v.patientAge, parseNumeric)) && ParseRenal(v.renalFunction).Some?
    ensures r.Success? ==>
      && r.value.drugName == v.drugName
      && r.value.patientAge > 0
      && Coerce(v.patientAge, parseNumeric) == Num(r.value.patientAge as real)
      && r.value.renalFunction == v.renalFunction
      && r.value.otherConditions == v.otherConditions
    ensures r.Failure? ==> ("drugName" in r.error <==> v.drugName == "")
    ensures r.Failure? ==> ("patientAge" in r.error <==> !IsPositiveInteger(Coerce(v.patientAge, parseNumeric)))
    ensures r.Failure? ==> ("renalFunction" in r.error <==> ParseRenal(v.renalFunction).None?)
    ensures r.Failure? ==> r.error.Keys <= {"drugName", "patientAge", "renalFunction"}
    ensures r.Failure? && "drugName" in r.error ==> r.error["drugName"] == Some(DrugNameMessage)
    ensures r.Failure? && "patientAge" in r.error && IsInteger(Coerce(v.patientAge, parseNumeric)) ==>
      r.error["patientAge"] == Some(AgeMessage)
  {
    NonEmptyIsMinLengthOne(v.drugName);
    var age := Coerce(v.patientAge, parseNumeric);
    var nameErrors := CheckMinLength("drugName", v.drugName, 1, DrugNameMessage);
    var ageErrors := CheckPositiveInteger("patientAge", age, Some(AgeMessage));
    var renalErrors: FieldErrors := if ParseRenal(v.renalFunction).Some? then map[] else map["renalFunction" := None];
    var errors := nameErrors + ageErrors + renalErrors;
    assert "drugName" in errors <==> nameErrors != map[];
    assert "patientAge" in errors <==> ageErrors != map[];
    assert "renalFunction" in errors <==> renalErrors != map[];
    if errors == map[] then
      Success(AgeSpecificDosageInput(v.drugName, age.value.Floor, v.renalFunction, v.otherConditions))
    else
      Failure(errors)
  }

  /**
   * The form's values on mount: no drug name; the profile's age when it is
   * truthy; its renal function, else normal; its other conditions, else
   * the empty text.
   */
  function DosageDefaults(profile: Option<PatientProfile>): (d: DosageFormValues)
    ensures d.drugName == ""
    ensures d.patientAge.Unset? <==> profile.None? || !Present(profile.value, AgeField)
    ensures !d.patientAge.Unset? ==> d.patientAge == NumberValue(Num(profile.value.age.value as real))
    ensures ParseRenal(d.renalFunction).Some?
    ensures profile.Some? && profile.value.renalFunction.Some? ==>
      ParseRenal(d.renalFunction) == profile.value.renalFunction
    ensures (profile.None? || profile.value.renalFunction.None?) ==> d.renalFunction == "normal"
    ensures profile.Some? && profile.value.otherConditions.Some? ==> d.otherConditions == profile.value.otherConditions
    ensures (profile.None? || profile.value.otherConditions.None?) ==> d.otherConditions == Some("")
  {
    DosageFormValues(
      "",
      if profile.Some? && Present(profile.value, AgeField) then NumberValue(Num(profile.value.age.value as real)) else Unset,
      RenalName(if profile.Some? && profile.value.renalFunction.Some? then profile.value.renalFunction.value else DefaultRenal),
      Some(if profile.Some? && profile.value.otherConditions.Some? then profile.value.otherConditions.value else ""))
  }

  /**
   * The reset run whenever the session profile changes: whatever was
   * typed, drug name included, gives way to the profile's defaults.
   */
  function ResetForProfile(current: DosageFormValues, profile: Option<PatientProfile>): (d: DosageFormValues)
    ensures d.drugName == ""
    ensures ParseRenal(d.renalFunction).Some?
    ensures current.drugName != "" ==> d != current
  {
    DosageDefaults(profile)
  }

  /** The reset does not depend on what was typed, and lands on the mount values. */
  lemma ResetForgetsTypedValues(a: DosageFormValues, b: DosageFormValues, profile: Option<PatientProfile>)
    ensures ResetForProfile(a, profile) == ResetForProfile(b, profile) == DosageDefaults(profile)
  {
  }

  /** The defaults alone never submit: the drug name is always missing. */
  lemma DefaultsNeedADrugName(profile: Option<PatientProfile>, parseNumeric: string -> JsNumber)
    ensures ValidateDosage(DosageDefaults(profile), parseNumeric).Failure?
    ensures "drugName" in ValidateDosage(DosageDefaults(profile), parseNumeric).error
  {
  }

  /**
   * With a saved age, typing a drug name is all the form needs: the
   * request carries the profile's age, its renal function or normal, and
   * its other conditions or the empty text.
   */
  lemma DefaultsWithSavedAge(profile: Option<PatientProfile>, name: string, parseNumeric: string -> JsNumber)
    requires profile.Some? && ValidProfile(profile.value) && profile.value.age.Some?
    requires name != ""
    ensures var p := profile.value;
      ValidateDosage(DosageDefaults(profile).(drugName := name), parseNumeric) == Success(AgeSpecificDosageInput(
        name,
        p.age.value,
        RenalName(if p.renalFunction.Some? then p.renalFunction.value else DefaultRenal),
        Some(if p.otherConditions.Some? then p.otherConditions.value else "")))
  {
    var p := profile.value;
    assert (p.age.value as real).Floor == p.age.value;
  }

  /**
   * Without a saved age the age field starts undefined, which coerces to
   * NaN: the form refuses until an age is typed, with zod's own wording.
   */
  lemma DefaultsWithoutAge(profile: Option<PatientProfile>, name: string, parseNumeric: string -> JsNumber)
    requires profile.None? || profile.value.age.None?
    ensures var r := ValidateDosage(DosageDefaults(profile).(drugName := name), parseNumeric);
      r.Failure? && "patientAge" in r.error && r.error["patientAge"] == None
  {
  }

  /**
   * Emptying the age input leaves the empty text, which coerces to 0: the
   * error shown is the form's own positive-number message.
   */
  lemma ClearedAgeIsNotPositive(v: DosageFormValues, parseNumeric: string -> JsNumber)
    requires v.patientAge == TextValue("")
    ensures var r := ValidateDosage(v, parseNumeric);
      r.Failure? && r.error["patientAge"] == Some(AgeMessage)
  {
    CoerceBlank("", parseNumeric);
  }

  /**
   * A typed whole age, written in decimal, reaches the request as that
   * number (as long as a double holds it exactly).
   */
  lemma TypedAgeReachesRequest(v: DosageFormValues, age: nat, parseNumeric: string -> JsNumber)
    requires 0 < age <= MaxExactInteger && v.patientAge == TextValue(JsString.NatToDecimal(age))
    requires v.drugName != "" && ParseRenal(v.renalFunction).Some?
    ensures ValidateDosage(v, parseNumeric).Success?
    ensures ValidateDosage(v, parseNumeric).value.patientAge == age
  {
    var text := JsString.NatToDecimal(age);
    assert [] + text + [] == text;
    JsString.DecimalRoundTrip(age);
    CoerceReadsDigits([], text, [], parseNumeric);
  }

  /**
   * Submitting the form: invalid values send nothing and change nothing;
   * valid ones go to the action as accepted, and the flow's outcome decides
   * between a stored recommendation and a toast.
   */
  function SubmitDosage(
    s: ToolState<AgeSpecificDosageOutput>, v: DosageFormValues, parseNumeric: string -> JsNumber,
    flow: DosageFlow): (sub: Submission<AgeSpecificDosageInput, AgeSpecificDosageOutput>)
    ensures sub.request.Some? <==> ValidateDosage(v, parseNumeric).Success?
    ensures sub.request.None? ==> sub.after == s
    ensures sub.request.Some? ==> sub.request.value == ValidateDosage(v, parseNumeric).value
    ensures sub.request.Some? ==>
      && sub.request.value.drugName == v.drugName
      && sub.request.value.patientAge > 0
      && Coerce(v.patientAge, parseNumeric) == Num(sub.request.value.patientAge as real)
      && sub.request.value.renalFunction == v.renalFunction
      && sub.request.value.otherConditions == v.otherConditions
    ensures sub.request.Some? ==> sub.pending.loading && sub.pending.result.None? && !sub.after.loading
    ensures sub.request.Some? && flow(sub.request.value).Returned? ==>
      sub.after.result == Some(flow(sub.request.value).value) && sub.after.toasts == s.toasts
    ensures sub.request.Some? && flow(sub.request.value).Thrown? ==>
      sub.after.result.None? && sub.after.toasts == s.toasts + [Toast(FailureTitle, Some(DosageFailure))]
  {
    match ValidateDosage(v, parseNumeric)
    case Failure(_) => Refused(s)
    case Success(request) => Sent(s, request, GetDosageRecommendation(flow, request), FailureTitle)
  }
}

=== FILE: extraction_tool.dfy ===
/**
 * The drug-extraction tool: its schema, its submit step and how a stored
 * result is shown.
 */
module ExtractionTool {
  import opened Wrappers
  import opened Forms
  import opened Flows
  import opened Actions
  import opened ToolState
  import JsString

  datatype ExtractionFormValues = ExtractionFormValues(medicalText: string)

  const MedicalTextMessage := "Please enter some medical text to analyze."

  const FailureTitle := "Extraction Failed"

  /** The fewest UTF-16 code units the text may have. */
  const MinTextLength := 10

  /** `extractionSchema`: the text must be at least ten code units long. */
  function ValidateExtraction(v: ExtractionFormValues): (r: Result<ExtractDrugInformationInput, FieldErrors>)
    ensures r.Success? <==> JsString.Utf16Length(v.medicalText) >= MinTextLength
    ensures r.Success? ==> r.value.medicalText == v.medicalText
    ensures r.Failure? ==> r.error == map["medicalText" := Some(MedicalTextMessage)]
  {
    var errors := CheckMinLength("medicalText", v.medicalText, MinTextLength, MedicalTextMessage);
    if errors == map[] then Success(ExtractDrugInformationInput(v.medicalText)) else Failure(errors)
  }

  /**
   * Counting code units rather than characters: ten characters always
   * suffice, fewer than five never do, and in between it depends on how
   * many lie above U+FFFF.
   */
  lemma TextLengthBounds(v: ExtractionFormValues)
    ensures |v.medicalText| >= MinTextLength ==> ValidateExtraction(v).Success?
    ensures |v.medicalText| < MinTextLength / 2 ==> ValidateExtraction(v).Failure?
  {
  }

  /**
   * Submitting the form: short text sends nothing and changes nothing;
   * otherwise the text goes to the action unchanged, and the flow's
   * outcome decides between a stored list and a toast.
   */
  function SubmitExtraction(
    s: ToolState<ExtractDrugInformationOutput>, v: ExtractionFormValues,
    flow: ExtractionFlow): (sub: Submission<ExtractDrugInformationInput, ExtractDrugInformationOutput>)
    ensures sub.request.Some? <==> JsString.Utf16Length(v.medicalText) >= MinTextLength
    ensures sub.request.None? ==> sub.after == s
    ensures sub.request.Some? ==> sub.request.value == ExtractDrugInformationInput(v.medicalText)
    ensures sub.request.Some? ==> sub.pending.loading && sub.pending.result.None? && !sub.after.loading
    ensures sub.request.Some? && flow(sub.request.value).Returned? ==>
      sub.after.result == Some(flow(sub.request.value).value) && sub.after.toasts == s.toasts
    ensures sub.request.Some? && flow(sub.request.value).Thrown? ==>
      sub.after.result.None? && sub.after.toasts == s.toasts + [Toast(FailureTitle, Some(ExtractionFailure))]
  {
    match ValidateExtraction(v)
    case Failure(_) => Refused(s)
    case Success(request) => Sent(s, request, GetExtractedDrugInfo(flow, request), FailureTitle)
  }

  /** What the results card shows. */
  datatype ResultView = NoCard | DrugRows(rows: seq<DrugInformation>) | NothingFound

  /**
   * No card without a result; a table row per extracted drug; a single
   * "nothing found" row for an empty list, which is a result and not an
   * error.
   */
  function ViewOf(result: Option<ExtractDrugInformationOutput>): (view: ResultView)
    ensures view.NoCard? <==> result.None?
    ensures view.NothingFound? <==> result == Some([])
    ensures view.DrugRows? ==> |view.rows| > 0 && Some(view.rows) == result
  {
    match result
    case None => NoCard
    case Some(drugs) => if |drugs| > 0 then DrugRows(drugs) else NothingFound
  }

  /**
   * An extraction that finds no drug is a success: the empty list is
   * stored, no toast is raised, and the card says nothing was found.
   */
  lemma EmptyExtractionIsNotAnError(s: ToolState<ExtractDrugInformationOutput>, v: ExtractionFormValues, flow: ExtractionFlow)
    requires JsString.Utf16Length(v.medicalText) >= MinTextLength
    requires flow(ExtractDrugInformationInput(v.medicalText)) == Returned([])
    ensures SubmitExtraction(s, v, flow).after.toasts == s.toasts
    ensures ViewOf(SubmitExtraction(s, v, flow).after.result) == NothingFound
  {
  }
}

=== FILE: flows.dfy ===
/**
 * The four language-model flows, seen from the request layer: their input
 * and output records, the façade functions that hand an input to a flow
 * and give back what it returns, and the one piece of template logic with
 * a contract, the rendering of the medication list.
 *
 * A flow runs a prompt on a hosted model; here it is a function parameter
 * that either returns an output or throws.
 */
module Flows {
  import opened Wrappers
  import JsString

  /** What calling a flow gives: its output, or a thrown error whose text only reaches the log. */
  datatype Outcome<+T> = Returned(value: T) | Thrown(detail: string)

  datatype DrugInteractionInput = DrugInteractionInput(patientDetails: string, drugList: string)

  datatype DrugInteractionOutput = DrugInteractionOutput(interactionReport: string)

  /** The dosage request; the age is the whole number the dosage form accepted. */
  datatype AgeSpecificDosageInput = AgeSpecificDosageInput(
    drugName: string,
    patientAge: int,
    renalFunction: string,
    otherConditions: Option<string>)

  datatype AgeSpecificDosageOutput = AgeSpecificDosageOutput(
    recommendedDosage: string,
    dosageJustification: string,
    renalDosingGuidance: Option<string>)

  datatype AlternativeMedicationInput = AlternativeMedicationInput(
    patientProfile: string,
    medications: seq<string>,
    interactionDetails: string)

  datatype AlternativeMedicationOutput = AlternativeMedicationOutput(
    suggestedAlternatives: seq<string>,
    reasoning: string)

  datatype ExtractDrugInformationInput = ExtractDrugInformationInput(medicalText: string)

  datatype DrugInformation = DrugInformation(drugName: string, dosage: string, frequency: string)

  /** The extraction output is a list of findings, possibly empty. */
  type ExtractDrugInformationOutput = seq<DrugInformation>

  type InteractionFlow = DrugInteractionInput -> Outcome<DrugInteractionOutput>

  type DosageFlow = AgeSpecificDosageInput -> Outcome<AgeSpecificDosageOutput>

  type AlternativesFlow = AlternativeMedicationInput -> Outcome<AlternativeMedicationOutput>

  type ExtractionFlow = ExtractDrugInformationInput -> Outcome<ExtractDrugInformationOutput>

  /** `analyzeDrugInteractions`: hands the input to its flow. */
  function AnalyzeDrugInteractions(flow: InteractionFlow, input: DrugInteractionInput): Outcome<DrugInteractionOutput> {
    flow(input)
  }

  /** `getAgeSpecificDosage`: hands the input to its flow. */
  function GetAgeSpecificDosage(flow: DosageFlow, input: AgeSpecificDosageInput): Outcome<AgeSpecificDosageOutput> {
    flow(input)
  }

  /** `suggestAlternativeMedication`: hands the input to its flow. */
  function SuggestAlternativeMedication(flow: AlternativesFlow, input: AlternativeMedicationInput): Outcome<AlternativeMedicationOutput> {
    flow(input)
  }

  /** `extractDrugInformation`: hands the input to its flow. */
  function ExtractDrugInformation(flow: ExtractionFlow, input: ExtractDrugInformationInput): Outcome<ExtractDrugInformationOutput> {
    flow(input)
  }

  const ListSeparator := ", "

  /**
   * The alternatives prompt's `{{#each medications}}` block: every item,
   * followed by `", "` unless it is the last.  The result is the items
   * joined by `", "`: a single item stands alone and nothing follows the
   * last item.
   */
  method RenderMedications(items: seq<string>) returns (out: string)
    ensures out == JsString.Join(items, ListSeparator)
    ensures |items| == 1 ==> out == items[0]
    ensures |items| >= 1 ==> |items[|items| - 1]| <= |out| && out[|out| - |items[|items| - 1]|..] == items[|items| - 1]
  {
    out := "";
    var i := 0;
    while i < |items|
      invariant 0 <= i <= |items|
      invariant i == 0 ==> out == ""
      invariant 0 < i ==> out == JsString.Join(items[..i], ListSeparator) + (if i < |items| then ListSeparator else "")
    {
      if i > 0 {
        JsString.JoinSnoc(items[..i], items[i], ListSeparator);
        assert items[..i + 1] == items[..i] + [items[i]];
      } else {
        assert items[..1] == [items[0]];
      }
      out := out + items[i];
      if i != |items| - 1 {
        out := out + ListSeparator;
      }
      i := i + 1;
    }
    assert items[..i] == items;
    if |items| >= 1 {
      JsString.JoinEndsWithLast(items, ListSeparator);
    }
  }
}

=== FILE: forms.dfy ===
/**
 * The pieces of zod's schema language the forms use, restated as plain
 * checks, and the shape of the per-field errors react-hook-form keeps.
 */
module Forms {
  import opened Wrappers
  import JsString

  /**
   * A JavaScript number as a coercing zod number schema sees it: `NaN`
   * (what `Number(undefined)` gives) or a finite value.  Infinities are not
   * part of this model.
   */
  datatype JsNumber = NaN | Num(value: real)

  /** `Number.isInteger`. */
  predicate IsInteger(n: JsNumber) {
    n.Num? && n.value.Floor as real == n.value
  }

  /** Accepted by `z.coerce.number().int().positive()`. */
  predicate IsPositiveInteger(n: JsNumber) {
    IsInteger(n) && n.value > 0.0
  }

  /** Accepted by `z.coerce.number().positive()`: fractions are fine. */
  predicate IsPositive(n: JsNumber) {
    n.Num? && n.value > 0.0
  }

  /** Accepted by `z.string().min(n)`; zod measures `length` in UTF-16 code units. */
  predicate HasMinLength(s: string, n: nat) {
    JsString.Utf16Length(s) >= n
  }

  /**
   * The errors a form shows, keyed by field name.  Each field keeps the
   * message of its first failing check: `Some(text)` when the schema gives
   * that check a message, `None` when zod's built-in wording is shown.
   */
  type FieldErrors = map<string, Option<string>>

  /** Errors that concern `field` alone: none, or one entry for it. */
  predicate OnlyAbout(errors: FieldErrors, field: string) {
    errors == map[] || errors.Keys == {field}
  }

  function CheckMinLength(field: string, s: string, n: nat, message: string): (errors: FieldErrors)
    ensures OnlyAbout(errors, field)
    ensures errors == map[] <==> HasMinLength(s, n)
    ensures errors != map[] ==> errors[field] == Some(message)
  {
    if HasMinLength(s, n) then map[] else map[field := Some(message)]
  }

  /**
   * `z.coerce.number().int().positive(message)`: the checks run in the
   * order number, integer, positive, and the first to fail is reported.
   */
  function CheckPositiveInteger(field: string, n: JsNumber, positiveMessage: Option<string>): (errors: FieldErrors)
    ensures OnlyAbout(errors, field)
    ensures errors == map[] <==> IsPositiveInteger(n)
    ensures errors != map[] && IsInteger(n) ==> errors[field] == positiveMessage
  {
    if n.NaN? then map[field := None]
    else if !IsInteger(n) then map[field := None]
    else if n.value <= 0.0 then map[field := positiveMessage]
    else map[]
  }

  function CheckPositive(field: string, n: JsNumber): (errors: FieldErrors)
    ensures OnlyAbout(errors, field)
    ensures errors == map[] <==> IsPositive(n)
  {
    if IsPositive(n) then map[]
    else
      var errors := map[field := None];
      assert field in errors;
      errors
  }

  /** A min-length-one text field rejects exactly the empty string. */
  lemma NonEmptyIsMinLengthOne(s: string)
    ensures HasMinLength(s, 1) <==> s != ""
  {
  }

  /**
   * What a number input's form field holds when it is bound with a plain
   * `{...field}`: nothing yet, a number put there as a default, or the text
   * the input reports after an edit.
   */
  datatype FieldValue = Unset | NumberValue(number: JsNumber) | TextValue(text: string)

  /**
   * The largest whole number below which a double holds every integer
   * exactly (2^53): `Number()` reads longer digit texts only approximately.
   */
  const MaxExactInteger: nat := 0x20_0000_0000_0000

  /**
   * `Number(x)`, the conversion `z.coerce.number()` applies: `undefined` is
   * NaN, a number stays as it is, text is trimmed, blank text is 0 and text
   * of decimal digits up to 2^53 is its value.  Any other text (a fraction,
   * an exponent, junk, a larger whole number that a double rounds) is read
   * by `parseNumeric`.
   */
  function Coerce(v: FieldValue, parseNumeric: string -> JsNumber): (n: JsNumber)
    ensures v.Unset? ==> n.NaN?
    ensures v.NumberValue? ==> n == v.number
    ensures v.TextValue? && JsString.AllWhitespace(v.text) ==> n == Num(0.0)
  {
    match v
    case Unset => NaN
    case NumberValue(x) => x
    case TextValue(text) =>
      JsString.TrimOfBlank(text);
      var t := JsString.Trim(text);
      if t == "" then Num(0.0)
      else if JsString.IsDigits(t) && JsString.DecimalValue(t) <= MaxExactInteger then Num(JsString.DecimalValue(t) as real)
      else parseNumeric(t)
  }

  /**
   * Text of digits, with or without surrounding whitespace, coerces to the
   * number it spells when a double holds it exactly, whatever reads the
   * other texts.
   */
  lemma CoerceReadsDigits(a: string, digits: string, b: string, parseNumeric: string -> JsNumber)
    requires JsString.AllWhitespace(a) && JsString.AllWhitespace(b)
    requires digits != "" && JsString.IsDigits(digits) && JsString.DecimalValue(digits) <= MaxExactInteger
    ensures Coerce(TextValue(a + digits + b), parseNumeric) == Num(JsString.DecimalValue(digits) as real)
  {
    JsString.DigitsAreTrimmed(digits);
    JsString.TrimOfPadded(a, digits, b);
  }

  /** An emptied input coerces to 0, an untouched one to NaN. */
  lemma CoerceBlank(a: string, parseNumeric: string -> JsNumber)
    requires JsString.AllWhitespace(a)
    ensures Coerce(TextValue(a), parseNumeric) == Num(0.0)
    ensures Coerce(Unset, parseNumeric) == NaN
  {
    JsString.TrimOfBlank(a);
  }
}

=== FILE: interaction_tool.dfy ===
/**
 * The drug-interaction tool: its one-field schema, the request it builds
 * from the session profile and the typed drug list, and its submit step.
 */
module InteractionTool {
  import opened Wrappers
  import opened Forms
  import opened Profile
  import opened PatientDetails
  import opened Flows
  import opened Actions
  import opened ToolState

  datatype InteractionFormValues = InteractionFormValues(drugList: string)

  const DrugListMessage := "Please enter at least one drug."

  const FailureTitle := "Analysis Failed"

  /** `interactionSchema`: the drug list must be non-empty; it is kept as typed. */
  function ValidateInteraction(v: InteractionFormValues): (r: Result<InteractionFormValues, FieldErrors>)
    ensures r.Success? <==> v.drugList != ""
    ensures r.Success? ==> r.value == v
    ensures r.Failure? ==> r.error == map["drugList" := Some(DrugListMessage)]
  {
    NonEmptyIsMinLengthOne(v.drugList);
    var errors := CheckMinLength("drugList", v.drugList, 1, DrugListMessage);
    if errors == map[] then Success(v) else Failure(errors)
  }

  /** The request `onSubmit` sends: the patient sentence and the drug list, not split. */
  function InteractionRequest(profile: Option<PatientProfile>, v: InteractionFormValues, showNumber: real -> string): (r: DrugInteractionInput)
    ensures r.drugList == v.drugList
    ensures r.patientDetails != ""
    ensures r.patientDetails == Fallback <==> profile.None? || !HasDetails(profile.value)
  {
    DrugInteractionInput(FormatPatientDetails(profile, showNumber), v.drugList)
  }

  /**
   * Submitting the form: an empty drug list sends nothing and changes
   * nothing; otherwise the request carries the formatted profile and the
   * drug list verbatim, and the outcome of the flow decides between a
   * stored report and a toast with the fixed failure message.
   */
  function SubmitInteraction(
    s: ToolState<DrugInteractionOutput>, profile: Option<PatientProfile>, v: InteractionFormValues,
    flow: InteractionFlow, showNumber: real -> string): (sub: Submission<DrugInteractionInput, DrugInteractionOutput>)
    ensures sub.request.Some? <==> v.drugList != ""
    ensures sub.request.None? ==> sub.after == s
    ensures sub.request.Some? ==>
      sub.request.value == DrugInteractionInput(FormatPatientDetails(profile, showNumber), v.drugList)
    ensures sub.request.Some? ==> sub.pending.loading && sub.pending.result.None? && !sub.after.loading
    ensures sub.request.Some? && flow(sub.request.value).Returned? ==>
      sub.after.result == Some(flow(sub.request.value).value) && sub.after.toasts == s.toasts
    ensures sub.request.Some? && flow(sub.request.value).Thrown? ==>
      sub.after.result.None? && sub.after.toasts == s.toasts + [Toast(FailureTitle, Some(InteractionFailure))]
  {
    match ValidateInteraction(v)
    case Failure(_) => Refused(s)
    case Success(values) =>
      var request := InteractionRequest(profile, values, showNumber);
      Sent(s, request, GetDrugInteractionReport(flow, request), FailureTitle)
  }

  /**
   * Without a usable profile the request says so in words: a missing
   * profile, or one with no truthy field, sends the fallback sentence.
   */
  lemma NoProfileSendsFallback(profile: Option<PatientProfile>, v: InteractionFormValues, showNumber: real -> string)
    requires profile.None? || AllEmpty(profile.value)
    ensures InteractionRequest(profile, v, showNumber).patientDetails == Fallback
  {
  }
}

=== FILE: js_string.dfy ===
/**
 * The JavaScript string operations the request layer relies on, over Dafny
 * strings of Unicode scalar values: `trim`, `split` on one character,
 * `Array.prototype.join`, the UTF-16 `length` that zod's `.min()` measures,
 * and the decimal text of an integer as a template literal prints it.
 */
module JsString {

  /**
   * The WhiteSpace and LineTerminator code points of the ECMAScript language
   * specification (sections 12.2 and 12.3); `String.prototype.trim` removes
   * exactly these at both ends.  The Zs category is listed explicitly.
   */
  predicate IsWhitespace(c: char) {
    || c == '\t' || c == '\U{000B}' || c == '\U{000C}' || c == ' '
    || c == '\U{00A0}' || c == '\U{FEFF}' || c == '\U{1680}'
    || ('\U{2000}' <= c <= '\U{200A}')
    || c == '\U{202F}' || c == '\U{205F}' || c == '\U{3000}'
    || c == '\n' || c == '\r' || c == '\U{2028}' || c == '\U{2029}'
  }

  predicate AllWhitespace(s: string) {
    forall i :: 0 <= i < |s| ==> IsWhitespace(s[i])
  }

  /** A character that is not whitespace does not occur in whitespace. */
  lemma WhitespaceHasNo(w: string, c: char)
    requires AllWhitespace(w) && !IsWhitespace(c)
    ensures c !in w
  {
    forall k | 0 <= k < |w|
      ensures w[k] != c
    {
      assert IsWhitespace(w[k]);
    }
  }

  /** Neither end of `s` is whitespace. */
  predicate IsTrimmed(s: string) {
    s == [] || (!IsWhitespace(s[0]) && !IsWhitespace(s[|s| - 1]))
  }

  /** `String.prototype.trimStart`: the suffix left after the leading whitespace. */
  function TrimStart(s: string): (r: string)
    ensures |r| <= |s| && r == s[|s| - |r|..]
    ensures r == [] || !IsWhitespace(r[0])
  {
    if |s| > 0 && IsWhitespace(s[0]) then TrimStart(s[1..]) else s
  }

  /** `String.prototype.trimEnd`: the prefix left before the trailing whitespace. */
  function TrimEnd(s: string): (r: string)
    ensures |r| <= |s| && r == s[..|r|]
    ensures r == [] || !IsWhitespace(r[|r| - 1])
  {
    if |s| > 0 && IsWhitespace(s[|s| - 1]) then TrimEnd(s[..|s| - 1]) else s
  }

  /** Where the trimmed text starts inside `s`. */
  function TrimOffset(s: string): (k: nat)
    ensures k <= |s| && s[k..] == TrimStart(s)
  {
    |s| - |TrimStart(s)|
  }

  /** `String.prototype.trim`: neither end of the result is whitespace. */
  function Trim(s: string): (r: string)
    ensures IsTrimmed(r)
  {
    var t := TrimStart(s);
    var r := TrimEnd(t);
    assert r != [] ==> r[0] == t[0];
    r
  }

  /** What `TrimStart` drops is whitespace. */
  lemma {:induction false} TrimStartDropsWhitespace(s: string)
    ensures AllWhitespace(s[..TrimOffset(s)])
    decreases |s|
  {
    if |s| > 0 && IsWhitespace(s[0]) {
      TrimStartDropsWhitespace(s[1..]);
      assert s[..TrimOffset(s)] == [s[0]] + s[1..][..TrimOffset(s[1..])];
    }
  }

  /** What `TrimEnd` drops is whitespace. */
  lemma {:induction false} TrimEndDropsWhitespace(s: string)
    ensures AllWhitespace(s[|TrimEnd(s)|..])
    decreases |s|
  {
    if |s| > 0 && IsWhitespace(s[|s| - 1]) {
      var u := s[..|s| - 1];
      TrimEndDropsWhitespace(u);
      assert s[|TrimEnd(s)|..] == u[|TrimEnd(u)|..] + [s[|s| - 1]];
    }
  }

  /**
   * `Trim` keeps a slice of its input and drops only whitespace: `s` is
   * whitespace, then the trimmed text, then whitespace.
   */
  lemma TrimIsSlice(s: string)
    ensures var k := TrimOffset(s); var r := Trim(s);
      && k + |r| <= |s|
      && r == s[k..k + |r|]
      && AllWhitespace(s[..k])
      && AllWhitespace(s[k + |r|..])
  {
    var k := TrimOffset(s);
    var t := TrimStart(s);
    var r := Trim(s);
    TrimStartDropsWhitespace(s);
    TrimEndDropsWhitespace(t);
    assert s[k + |r|..] == t[|r|..];
  }

  lemma {:induction false} TrimStartSkips(a: string, t: string)
    requires AllWhitespace(a)
    requires t == [] || !IsWhitespace(t[0])
    ensures TrimStart(a + t) == t
    decreases |a|
  {
    if |a| > 0 {
      assert (a + t)[1..] == a[1..] + t;
      TrimStartSkips(a[1..], t);
    } else {
      assert a + t == t;
    }
  }

  lemma {:induction false} TrimEndSkips(t: string, b: string)
    requires AllWhitespace(b)
    requires t == [] || !IsWhitespace(t[|t| - 1])
    ensures TrimEnd(t + b) == t
    decreases |b|
  {
    if |b| > 0 {
      assert (t + b)[..|t + b| - 1] == t + b[..|b| - 1];
      TrimEndSkips(t, b[..|b| - 1]);
    } else {
      assert t + b == t;
    }
  }

  /**
   * `Trim` is characterised by its contract: whatever trimmed text `r` is
   * padded with whitespace on both sides, trimming gives `r` back.
   */
  lemma TrimOfPadded(a: string, r: string, b: string)
    requires AllWhitespace(a) && AllWhitespace(b) && IsTrimmed(r)
    ensures Trim(a + r + b) == r
  {
    if r == [] {
      assert a + r + b == (a + b) + [];
      TrimStartSkips(a + b, []);
    } else {
      assert a + r + b == a + (r + b);
      TrimStartSkips(a, r + b);
      TrimEndSkips(r, b);
    }
  }

  /** Text with no whitespace at either end is left as it is. */
  lemma TrimOfTrimmed(r: string)
    requires IsTrimmed(r)
    ensures Trim(r) == r
  {
    assert [] + r + [] == r;
    TrimOfPadded([], r, []);
  }

  /** Text that is all whitespace trims to the empty text. */
  lemma TrimOfBlank(a: string)
    ensures AllWhitespace(a) ==> Trim(a) == ""
  {
    if AllWhitespace(a) {
      assert a + [] + [] == a;
      TrimOfPadded(a, [], []);
    }
  }

  /** Trimming twice is trimming once. */
  lemma TrimIdempotent(s: string)
    ensures Trim(Trim(s)) == Trim(s)
  {
    TrimOfTrimmed(Trim(s));
  }

  /** Number of occurrences of `c` in `s`. */
  function Count(s: string, c: char): nat {
    if |s| == 0 then 0 else (if s[0] == c then 1 else 0) + Count(s[1..], c)
  }

  /**
   * `s.split(sep)` for a one-character separator: the pieces between
   * consecutive separators, empty pieces included, so there is always one
   * piece more than there are separators.
   */
  function Split(s: string, sep: char): (parts: seq<string>)
    ensures |parts| == Count(s, sep) + 1
    ensures forall i :: 0 <= i < |parts| ==> sep !in parts[i]
  {
    if |s| == 0 then [""]
    else
      var rest := Split(s[1..], sep);
      if s[0] == sep then [""] + rest
      else [[s[0]] + rest[0]] + rest[1..]
  }

  /** Text made only of separators and whitespace splits into whitespace pieces. */
  lemma {:induction false} SplitOfBlanks(s: string, sep: char)
    requires forall i :: 0 <= i < |s| ==> s[i] == sep || IsWhitespace(s[i])
    ensures forall i :: 0 <= i < |Split(s, sep)| ==> AllWhitespace(Split(s, sep)[i])
  {
    if |s| > 0 {
      SplitOfBlanks(s[1..], sep);
      var rest := Split(s[1..], sep);
      if s[0] != sep {
        assert AllWhitespace([s[0]] + rest[0]);
      }
    }
  }

  /** `xs.join(sep)`: the items with `sep` between neighbours and nowhere else. */
  function Join(xs: seq<string>, sep: string): string {
    if |xs| == 0 then ""
    else if |xs| == 1 then xs[0]
    else xs[0] + sep + Join(xs[1..], sep)
  }

  /** Total length of the items of `xs`. */
  function TotalLength(xs: seq<string>): nat {
    if |xs| == 0 then 0 else |xs[0]| + TotalLength(xs[1..])
  }

  /** A join adds exactly one separator between each pair of neighbours. */
  lemma {:induction false} JoinLength(xs: seq<string>, sep: string)
    requires |xs| >= 1
    ensures |Join(xs, sep)| == TotalLength(xs) + |sep| * (|xs| - 1)
  {
    if |xs| > 1 {
      JoinLength(xs[1..], sep);
    }
  }

  /** A join of at least one item starts with the first item. */
  lemma {:induction false} JoinStartsWithFirst(xs: seq<string>, sep: string)
    requires |xs| >= 1
    ensures |xs[0]| <= |Join(xs, sep)|
    ensures Join(xs, sep)[..|xs[0]|] == xs[0]
  {
  }

  /** A join of at least one item ends with the last item: no trailing separator. */
  lemma {:induction false} JoinEndsWithLast(xs: seq<string>, sep: string)
    requires |xs| >= 1
    ensures |xs[|xs| - 1]| <= |Join(xs, sep)|
    ensures Join(xs, sep)[|Join(xs, sep)| - |xs[|xs| - 1]|..] == xs[|xs| - 1]
  {
    if |xs| > 1 {
      JoinEndsWithLast(xs[1..], sep);
      assert xs[1..][|xs[1..]| - 1] == xs[|xs| - 1];
    }
  }

  /** Appending an item to a non-empty join adds one separator and the item. */
  lemma {:induction false} JoinSnoc(xs: seq<string>, x: string, sep: string)
    requires |xs| >= 1
    ensures Join(xs + [x], sep) == Join(xs, sep) + sep + x
  {
    if |xs| == 1 {
      assert xs + [x] == [xs[0], x];
    } else {
      assert (xs + [x])[1..] == xs[1..] + [x];
      JoinSnoc(xs[1..], x, sep);
    }
  }

  /** Gluing a character onto the first item of a join glues it onto the join. */
  lemma JoinConsHead(c: char, xs: seq<string>, sep: string)
    requires |xs| >= 1
    ensures Join([[c] + xs[0]] + xs[1..], sep) == [c] + Join(xs, sep)
  {
    var ys := [[c] + xs[0]] + xs[1..];
    assert ys[1..] == xs[1..];
  }

  /** Joining the pieces of a split with the separator gives the text back. */
  lemma {:induction false} SplitThenJoin(s: string, sep: char)
    ensures Join(Split(s, sep), [sep]) == s
  {
    if |s| > 0 {
      var rest := Split(s[1..], sep);
      SplitThenJoin(s[1..], sep);
      if s[0] == sep {
        assert Split(s, sep) == [""] + rest;
        assert ([""] + rest)[1..] == rest;
        assert s == [sep] + s[1..];
      } else {
        JoinConsHead(s[0], rest, [sep]);
        assert s == [s[0]] + s[1..];
      }
    }
  }

  lemma {:induction false} SplitWithout(a: string, sep: char)
    requires sep !in a
    ensures Split(a, sep) == [a]
  {
    if |a| > 0 {
      SplitWithout(a[1..], sep);
      assert [a[0]] + a[1..] == a;
    }
  }

  lemma {:induction false} SplitAtFirst(a: string, b: string, sep: char)
    requires sep !in a
    ensures Split(a + [sep] + b, sep) == [a] + Split(b, sep)
  {
    var s := a + [sep] + b;
    if |a| == 0 {
      assert s[1..] == b;
    } else {
      assert s[1..] == a[1..] + [sep] + b;
      SplitAtFirst(a[1..], b, sep);
      assert [a[0]] + a[1..] == a;
    }
  }

  /** Splitting the join of separator-free items gives the items back. */
  lemma {:induction false} JoinThenSplit(xs: seq<string>, sep: char)
    requires |xs| >= 1
    requires forall i :: 0 <= i < |xs| ==> sep !in xs[i]
    ensures Split(Join(xs, [sep]), sep) == xs
  {
    if |xs| == 1 {
      SplitWithout(xs[0], sep);
    } else {
      JoinThenSplit(xs[1..], sep);
      SplitAtFirst(xs[0], Join(xs[1..], [sep]), sep);
    }
  }

  /** UTF-16 code units a code point occupies: two above U+FFFF, else one. */
  function CodeUnits(c: char): nat {
    if c as int >= 0x1_0000 then 2 else 1
  }

  /** JavaScript's `length` of a string: its size in UTF-16 code units. */
  function Utf16Length(s: string): (n: nat)
    ensures |s| <= n <= 2 * |s|
    ensures n == 0 <==> s == []
  {
    if |s| == 0 then 0 else CodeUnits(s[0]) + Utf16Length(s[1..])
  }

  function DigitChar(d: nat): (c: char)
    requires d < 10
    ensures '0' <= c <= '9'
    ensures c as int - '0' as int == d
  {
    ('0' as int + d) as char
  }

  predicate IsDigits(s: string) {
    forall i :: 0 <= i < |s| ==> '0' <= s[i] <= '9'
  }

  /** A digit is not whitespace, so text of digits is already trimmed. */
  lemma DigitsAreTrimmed(s: string)
    requires IsDigits(s)
    ensures IsTrimmed(s)
  {
    if s != [] {
      assert '0' <= s[0] <= '9' && '0' <= s[|s| - 1] <= '9';
    }
  }

  /** The number a string of decimal digits denotes. */
  function DecimalValue(s: string): nat
    requires IsDigits(s)
  {
    if |s| == 0 then 0 else 10 * DecimalValue(s[..|s| - 1]) + (s[|s| - 1] as int - '0' as int)
  }

  /** Decimal text of a natural number, without leading zeros. */
  function NatToDecimal(n: nat): (r: string)
    ensures |r| >= 1 && IsDigits(r)
    ensures r[0] == '0' ==> n == 0
    decreases n
  {
    if n < 10 then [DigitChar(n)] else NatToDecimal(n / 10) + [DigitChar(n % 10)]
  }

  /** Reading back the decimal text of `n` gives `n`. */
  lemma {:induction false} DecimalRoundTrip(n: nat)
    ensures DecimalValue(NatToDecimal(n)) == n
    decreases n
  {
    var r := NatToDecimal(n);
    if n >= 10 {
      DecimalRoundTrip(n / 10);
      assert r[..|r| - 1] == NatToDecimal(n / 10);
    }
  }

  /**
   * The text `${n}` gives for an integer-valued number: a minus sign for
   * negatives, then the decimal digits.
   */
  function IntToString(n: int): (r: string)
    ensures |r| >= 1
    ensures r[0] == '-' <==> n < 0
  {
    if n < 0 then "-" + NatToDecimal(-n) else NatToDecimal(n)
  }

  /** The text of an integer is a sign and digits that read back as the integer. */
  lemma IntToStringReadsBack(n: int)
    ensures var r := IntToString(n);
      && |r| >= 1
      && (n >= 0 <==> IsDigits(r))
      && (n < 0 ==> r[0] == '-' && IsDigits(r[1..]) && DecimalValue(r[1..]) == -n)
      && (n >= 0 ==> DecimalValue(r) == n)
  {
    var r := IntToString(n);
    if n < 0 {
      DecimalRoundTrip(-n);
      assert r[1..] == NatToDecimal(-n);
      assert r[0] == '-';
    } else {
      DecimalRoundTrip(n);
    }
  }
}

=== FILE: patient_details.dfy ===
/**
 * `formatPatientDetails`: the sentence describing the patient that the
 * interaction and alternatives requests carry.  Both tools define the
 * function with the same text, so it is defined once here.
 */
module PatientDetails {
  import opened Wrappers
  import opened Profile
  import JsString

  const Fallback := "No patient details provided."

  const Separator := ", "

  /** The profile fields, in the order the sentence lists them. */
  datatype Field = AgeField | SexField | WeightField | RenalField | ConditionsField

  const FieldOrder: seq<Field> := [AgeField, SexField, WeightField, RenalField, ConditionsField]

  function Rank(f: Field): nat {
    match f
    case AgeField => 0
    case SexField => 1
    case WeightField => 2
    case RenalField => 3
    case ConditionsField => 4
  }

  predicate StrictlyOrdered(fs: seq<Field>) {
    forall i, j :: 0 <= i < j < |fs| ==> Rank(fs[i]) < Rank(fs[j])
  }

  /** Every value of the profile object is `undefined` or `''`. */
  predicate AllEmpty(p: PatientProfile) {
    && p.age.None? && p.sex.None? && p.weight.None? && p.renalFunction.None?
    && (p.otherConditions.None? || p.otherConditions.value == "")
  }

  /**
   * JavaScript truthiness of a field: a missing field, the number 0 and the
   * empty string are falsy; enum members are non-empty strings.
   */
  predicate Present(p: PatientProfile, f: Field) {
    match f
    case AgeField => p.age.Some? && p.age.value != 0
    case SexField => p.sex.Some?
    case WeightField => p.weight.Some? && p.weight.value != 0.0
    case RenalField => p.renalFunction.Some?
    case ConditionsField => p.otherConditions.Some? && p.otherConditions.value != ""
  }

  /** Some field of the profile is truthy. */
  predicate HasDetails(p: PatientProfile) {
    || Present(p, AgeField) || Present(p, SexField) || Present(p, WeightField)
    || Present(p, RenalField) || Present(p, ConditionsField)
  }

  function Label(f: Field): string {
    match f
    case AgeField => "Age"
    case SexField => "Sex"
    case WeightField => "Weight"
    case RenalField => "Renal Function"
    case ConditionsField => "Other Conditions"
  }

  function Suffix(f: Field): string {
    match f
    case WeightField => " kg"
    case RenalField => " impairment"
    case _ => ""
  }

  /**
   * How a field's value is interpolated.  Ages are whole numbers and print
   * as decimal digits; the text of a (possibly fractional) weight is left to
   * `showNumber`.
   */
  function ValueText(p: PatientProfile, f: Field, showNumber: real -> string): string
    requires Present(p, f)
  {
    match f
    case AgeField => JsString.IntToString(p.age.value)
    case SexField => SexName(p.sex.value)
    case WeightField => showNumber(p.weight.value)
    case RenalField => RenalName(p.renalFunction.value)
    case ConditionsField => p.otherConditions.value
  }

  /** The sentence fragment one field contributes, e.g. `Weight: 70 kg`. */
  function Entry(p: PatientProfile, f: Field, showNumber: real -> string): string
    requires Present(p, f)
  {
    Label(f) + ": " + ValueText(p, f, showNumber) + Suffix(f)
  }

  /** The truthy fields among `fs`, in their order there. */
  function PresentFields(p: PatientProfile, fs: seq<Field>): seq<Field> {
    if |fs| == 0 then []
    else (if Present(p, fs[0]) then [fs[0]] else []) + PresentFields(p, fs[1..])
  }

  /** What one conditional push adds: the field's entry if it is truthy. */
  function Push(p: PatientProfile, f: Field, showNumber: real -> string): seq<string> {
    if Present(p, f) then [Entry(p, f, showNumber)] else []
  }

  /** One entry per truthy field of `fs`, in the order of `fs`. */
  function EntriesOf(p: PatientProfile, fs: seq<Field>, showNumber: real -> string): seq<string> {
    if |fs| == 0 then [] else Push(p, fs[0], showNumber) + EntriesOf(p, fs[1..], showNumber)
  }

  /** The `details` array the five conditional pushes build, age first. */
  function Details(p: PatientProfile, showNumber: real -> string): seq<string> {
    Push(p, AgeField, showNumber) + (Push(p, SexField, showNumber) + (Push(p, WeightField, showNumber)
    + (Push(p, RenalField, showNumber) + Push(p, ConditionsField, showNumber))))
  }

  lemma EntriesOfCons(p: PatientProfile, f: Field, fs: seq<Field>, showNumber: real -> string)
    ensures EntriesOf(p, [f] + fs, showNumber) == Push(p, f, showNumber) + EntriesOf(p, fs, showNumber)
  {
    assert ([f] + fs)[1..] == fs;
  }

  /** The five pushes are the filter of the field order by truthiness. */
  lemma DetailsFollowFieldOrder(p: PatientProfile, showNumber: real -> string)
    ensures Details(p, showNumber) == EntriesOf(p, FieldOrder, showNumber)
  {
    var tail4: seq<Field> := [ConditionsField];
    var tail3 := [RenalField] + tail4;
    var tail2 := [WeightField] + tail3;
    var tail1 := [SexField] + tail2;
    assert FieldOrder == [AgeField] + tail1;
    EntriesOfCons(p, ConditionsField, [], showNumber);
    assert tail4 == [ConditionsField] + [];
    assert Push(p, ConditionsField, showNumber) + [] == Push(p, ConditionsField, showNumber);
    EntriesOfCons(p, RenalField, tail4, showNumber);
    EntriesOfCons(p, WeightField, tail3, showNumber);
    EntriesOfCons(p, SexField, tail2, showNumber);
    EntriesOfCons(p, AgeField, tail1, showNumber);
  }

  /** A field is kept iff it is truthy, and an ordered list of fields stays ordered. */
  lemma {:induction false} PresentFieldsSpec(p: PatientProfile, fs: seq<Field>)
    ensures forall f :: f in PresentFields(p, fs) <==> f in fs && Present(p, f)
    ensures StrictlyOrdered(fs) ==> StrictlyOrdered(PresentFields(p, fs))
  {
    if |fs| > 0 {
      PresentFieldsSpec(p, fs[1..]);
      var rest := PresentFields(p, fs[1..]);
      assert forall f :: f in fs <==> f == fs[0] || f in fs[1..];
      if StrictlyOrdered(fs) {
        assert forall f :: f in rest ==> Rank(fs[0]) < Rank(f) by {
          forall f | f in rest
            ensures Rank(fs[0]) < Rank(f)
          {
            var k :| 0 <= k < |fs[1..]| && fs[1..][k] == f;
            assert fs[k + 1] == f;
          }
        }
        assert StrictlyOrdered(fs[1..]);
      }
    }
  }

  /** The entries are those of the truthy fields, position by position. */
  lemma {:induction false} EntriesOfPresentFields(p: PatientProfile, fs: seq<Field>, showNumber: real -> string)
    ensures |EntriesOf(p, fs, showNumber)| == |PresentFields(p, fs)|
    ensures forall i :: 0 <= i < |PresentFields(p, fs)| ==>
      && Present(p, PresentFields(p, fs)[i])
      && EntriesOf(p, fs, showNumber)[i] == Entry(p, PresentFields(p, fs)[i], showNumber)
  {
    if |fs| > 0 {
      EntriesOfPresentFields(p, fs[1..], showNumber);
      assert PresentFields(p, fs) == (if Present(p, fs[0]) then [fs[0]] else []) + PresentFields(p, fs[1..]);
      assert EntriesOf(p, fs, showNumber) == Push(p, fs[0], showNumber) + EntriesOf(p, fs[1..], showNumber);
    }
  }

  /** The details list in field order, each truthy field exactly once. */
  lemma DetailsInFieldOrder(p: PatientProfile, showNumber: real -> string)
    ensures var fs := PresentFields(p, FieldOrder);
      && StrictlyOrdered(fs)
      && (forall f :: f in fs <==> Present(p, f))
      && |Details(p, showNumber)| == |fs|
      && (forall i :: 0 <= i < |fs| ==> Present(p, fs[i]) && Details(p, showNumber)[i] == Entry(p, fs[i], showNumber))
  {
    FieldOrderIsOrderedAndComplete();
    DetailsFollowFieldOrder(p, showNumber);
    PresentFieldsSpec(p, FieldOrder);
    EntriesOfPresentFields(p, FieldOrder, showNumber);
  }

  /** The field order lists every field, each once, by rank. */
  lemma FieldOrderIsOrderedAndComplete()
    ensures StrictlyOrdered(FieldOrder)
    ensures forall f :: f in FieldOrder
  {
    forall f
      ensures f in FieldOrder
    {
      match f
      case AgeField => assert FieldOrder[0] == f;
      case SexField => assert FieldOrder[1] == f;
      case WeightField => assert FieldOrder[2] == f;
      case RenalField => assert FieldOrder[3] == f;
      case ConditionsField => assert FieldOrder[4] == f;
    }
  }

  lemma HasDetailsIffSomeEntry(p: PatientProfile, showNumber: real -> string)
    ensures HasDetails(p) <==> |Details(p, showNumber)| > 0
  {
    DetailsInFieldOrder(p, showNumber);
    var fs := PresentFields(p, FieldOrder);
    if HasDetails(p) {
      var f :| Present(p, f);
      assert f in fs;
    }
  }

  /** No entry can be mistaken for the fallback: its label already differs. */
  lemma EntryIsNotFallbackPrefix(p: PatientProfile, f: Field, showNumber: real -> string)
    requires Present(p, f)
    ensures |Entry(p, f, showNumber)| >= 1 && Entry(p, f, showNumber)[0] != Fallback[0]
  {
    assert Entry(p, f, showNumber)[0] == Label(f)[0];
  }

  /** The joined details of a profile with a truthy field: never empty, never the fallback. */
  lemma JoinedDetailsShape(p: PatientProfile, showNumber: real -> string)
    requires HasDetails(p)
    ensures var d := Details(p, showNumber); var text := JsString.Join(d, Separator);
      && |d| >= 1
      && text != "" && text != Fallback
      && |text| == JsString.TotalLength(d) + |Separator| * (|d| - 1)
      && |d[0]| <= |text| && text[..|d[0]|] == d[0]
      && |d[|d| - 1]| <= |text| && text[|text| - |d[|d| - 1]|..] == d[|d| - 1]
  {
    var d := Details(p, showNumber);
    HasDetailsIffSomeEntry(p, showNumber);
    JsString.JoinStartsWithFirst(d, Separator);
    JsString.JoinEndsWithLast(d, Separator);
    JsString.JoinLength(d, Separator);
    DetailsInFieldOrder(p, showNumber);
    var fs := PresentFields(p, FieldOrder);
    EntryIsNotFallbackPrefix(p, fs[0], showNumber);
    var text := JsString.Join(d, Separator);
    assert text[0] == d[0][0];
  }

  /**
   * `formatPatientDetails`: the fallback sentence exactly when the profile is
   * missing or has no truthy field; otherwise the entries of the truthy
   * fields, in fixed order, joined by `", "`.
   */
  function FormatPatientDetails(profile: Option<PatientProfile>, showNumber: real -> string): (text: string)
    ensures text != ""
    ensures text == Fallback <==> profile.None? || !HasDetails(profile.value)
    ensures profile.Some? && HasDetails(profile.value) ==>
      text == JsString.Join(Details(profile.value, showNumber), Separator)
  {
    if profile.None? || AllEmpty(profile.value) then
      Fallback
    else
      var details := Details(profile.value, showNumber);
      HasDetailsIffSomeEntry(profile.value, showNumber);
      if |details| > 0 then
        JoinedDetailsShape(profile.value, showNumber);
        JsString.Join(details, Separator)
      else
        Fallback
  }

  /**
   * For a profile the profile form accepted, a field shows iff it is set;
   * other conditions must also be non-empty text.
   */
  lemma ValidProfilePresence(p: PatientProfile)
    requires ValidProfile(p)
    ensures Present(p, AgeField) <==> p.age.Some?
    ensures Present(p, SexField) <==> p.sex.Some?
    ensures Present(p, WeightField) <==> p.weight.Some?
    ensures Present(p, RenalField) <==> p.renalFunction.Some?
    ensures Present(p, ConditionsField) <==> p.otherConditions.Some? && p.otherConditions.value != ""
  {
  }

  /** A profile with exactly two entries reads as those two entries. */
  lemma FormatOfTwoEntries(p: PatientProfile, a: string, b: string, showNumber: real -> string)
    requires Details(p, showNumber) == [a, b]
    ensures FormatPatientDetails(Some(p), showNumber) == a + Separator + b
  {
    HasDetailsIffSomeEntry(p, showNumber);
    var d := Details(p, showNumber);
    assert d[1..] == [d[1]];
    assert JsString.Join(d, Separator) == d[0] + Separator + d[1];
  }

  /** A profile with age 65 and moderate renal impairment and nothing else. */
  lemma AgeAndRenalExample(p: PatientProfile, showNumber: real -> string)
    requires p == PatientProfile(Some(65), None, None, Some(Moderate), None)
    ensures FormatPatientDetails(Some(p), showNumber) == "Age: 65" + Separator + "Renal Function: moderate impairment"
  {
    AgeAndRenalDetails(p, showNumber);
    FormatOfTwoEntries(p, "Age: 65", "Renal Function: moderate impairment", showNumber);
  }

  lemma AgeEntryExample(p: PatientProfile, showNumber: real -> string)
    requires p.age == Some(65)
    ensures Present(p, AgeField) && Entry(p, AgeField, showNumber) == "Age: 65"
  {
    assert JsString.NatToDecimal(6) == "6";
    assert JsString.IntToString(65) == "65";
  }

  lemma ModerateRenalEntryExample(p: PatientProfile, showNumber: real -> string)
    requires p.renalFunction == Some(Moderate)
    ensures Present(p, RenalField) && Entry(p, RenalField, showNumber) == "Renal Function: moderate impairment"
  {
    assert ValueText(p, RenalField, showNumber) == "moderate";
  }

  lemma AgeAndRenalDetails(p: PatientProfile, showNumber: real -> string)
    requires p == PatientProfile(Some(65), None, None, Some(Moderate), None)
    ensures Details(p, showNumber) == ["Age: 65", "Renal Function: moderate impairment"]
  {
    AgeEntryExample(p, showNumber);
    ModerateRenalEntryExample(p, showNumber);
    var age := Entry(p, AgeField, showNumber);
    var renal := Entry(p, RenalField, showNumber);
    assert Push(p, AgeField, showNumber) == [age];
    assert Push(p, RenalField, showNumber) == [renal];
    assert Push(p, SexField, showNumber) == [] && Push(p, WeightField, showNumber) == [];
    assert Push(p, ConditionsField, showNumber) == [];
    assert Details(p, showNumber) == [age] + ([] + ([] + ([renal] + [])));
  }

  /** Weight is suffixed `kg`; a normal renal function still reads `normal impairment`. */
  lemma WeightAndNormalRenalExample(p: PatientProfile, showNumber: real -> string)
    requires p == PatientProfile(None, None, Some(70.5), Some(Normal), None)
    ensures FormatPatientDetails(Some(p), showNumber)
      == ("Weight: " + showNumber(70.5) + " kg") + Separator + "Renal Function: normal impairment"
  {
    var w := "Weight: " + showNumber(70.5) + " kg";
    assert Entry(p, WeightField, showNumber) == w;
    assert Entry(p, RenalField, showNumber) == "Renal Function: normal impairment";
    FormatOfTwoEntries(p, w, "Renal Function: normal impairment", showNumber);
  }

  /** Falsy values are left out: an age of 0 and empty conditions give the fallback. */
  lemma FalsyValuesExample(showNumber: real -> string)
    ensures FormatPatientDetails(Some(PatientProfile(Some(0), None, Some(0.0), None, Some(""))), showNumber) == Fallback
    ensures FormatPatientDetails(Some(EmptyProfile), showNumber) == Fallback
  {
  }
}

=== FILE: profile.dfy ===
/**
 * The patient profile (the `PatientProfile` type) and the profile form that
 * produces it: the enum vocabularies, the form's schema, the mapping from
 * a cleared number input to `undefined`, and the save path.
 */
module Profile {
  import opened Wrappers
  import opened Forms

  datatype Sex = Male | Female | OtherSex

  datatype RenalFunction = Normal | Mild | Moderate | Severe

  /** The enum literal a sex is written as. */
  function SexName(s: Sex): string {
    match s
    case Male => "male"
    case Female => "female"
    case OtherSex => "other"
  }

  /** `z.enum(['male', 'female', 'other'])`: the member a string names, if any. */
  function ParseSex(s: string): (r: Option<Sex>)
    ensures forall x :: r == Some(x) <==> SexName(x) == s
  {
    if s == "male" then Some(Male)
    else if s == "female" then Some(Female)
    else if s == "other" then Some(OtherSex)
    else None
  }

  /** The enum literal a renal function is written as. */
  function RenalName(r: RenalFunction): string {
    match r
    case Normal => "normal"
    case Mild => "mild"
    case Moderate => "moderate"
    case Severe => "severe"
  }

  /** `z.enum(['normal', 'mild', 'moderate', 'severe'])`. */
  function ParseRenal(s: string): (r: Option<RenalFunction>)
    ensures forall x :: r == Some(x) <==> RenalName(x) == s
  {
    if s == "normal" then Some(Normal)
    else if s == "mild" then Some(Mild)
    else if s == "moderate" then Some(Moderate)
    else if s == "severe" then Some(Severe)
    else None
  }

  /**
   * A patient profile; every field may be missing.  Ages are whole numbers
   * because the only producer of profiles, the profile form, accepts
   * integers only.
   */
  datatype PatientProfile = PatientProfile(
    age: Option<int>,
    sex: Option<Sex>,
    weight: Option<real>,
    renalFunction: Option<RenalFunction>,
    otherConditions: Option<string>)

  const EmptyProfile := PatientProfile(None, None, None, None, None)

  /** What the profile form guarantees of every profile it saves. */
  predicate ValidProfile(p: PatientProfile) {
    && (p.age.None? || p.age.value > 0)
    && (p.weight.None? || p.weight.value > 0.0)
  }

  /** The raw values the profile form holds before its schema runs. */
  datatype ProfileFormValues = ProfileFormValues(
    age: Option<JsNumber>,
    sex: Option<string>,
    weight: Option<JsNumber>,
    renalFunction: Option<string>,
    otherConditions: Option<string>)

  predicate AgeAccepted(a: Option<JsNumber>) {
    a.None? || IsPositiveInteger(a.value)
  }

  predicate SexAccepted(s: Option<string>) {
    s.None? || ParseSex(s.value).Some?
  }

  predicate WeightAccepted(w: Option<JsNumber>) {
    w.None? || IsPositive(w.value)
  }

  predicate RenalAccepted(r: Option<string>) {
    r.None? || ParseRenal(r.value).Some?
  }

  /** The profile carries exactly the form's values, converted to their types. */
  predicate Carries(v: ProfileFormValues, p: PatientProfile) {
    && (p.age.Some? <==> v.age.Some?)
    && (p.age.Some? ==> v.age.value == Num(p.age.value as real))
    && (p.sex.Some? <==> v.sex.Some?)
    && (p.sex.Some? ==> v.sex.value == SexName(p.sex.value))
    && (p.weight.Some? <==> v.weight.Some?)
    && (p.weight.Some? ==> v.weight.value == Num(p.weight.value))
    && (p.renalFunction.Some? <==> v.renalFunction.Some?)
    && (p.renalFunction.Some? ==> v.renalFunction.value == RenalName(p.renalFunction.value))
    && p.otherConditions == v.otherConditions
  }

  function CheckOptional(field: string, present: bool, ok: bool): (errors: FieldErrors)
    ensures OnlyAbout(errors, field)
    ensures errors == map[] <==> !present || ok
  {
    if present && !ok then
      var errors := map[field := None];
      assert field in errors;
      errors
    else
      map[]
  }

  /** The age check: an absent age passes, a present one must be a positive integer. */
  function AgeErrors(a: Option<JsNumber>): (errors: FieldErrors)
    ensures OnlyAbout(errors, "age")
    ensures errors == map[] <==> AgeAccepted(a)
  {
    if a.Some? then CheckPositiveInteger("age", a.value, None) else map[]
  }

  /** The weight check: an absent weight passes, a present one must be positive. */
  function WeightErrors(w: Option<JsNumber>): (errors: FieldErrors)
    ensures OnlyAbout(errors, "weight")
    ensures errors == map[] <==> WeightAccepted(w)
  {
    if w.Some? then CheckPositive("weight", w.value) else map[]
  }

  /**
   * The errors `profileSchema` reports: one entry for each present field
   * that fails its check, none for the others.
   */
  function ProfileErrors(v: ProfileFormValues): (errors: FieldErrors)
    ensures "age" in errors <==> !AgeAccepted(v.age)
    ensures "sex" in errors <==> !SexAccepted(v.sex)
    ensures "weight" in errors <==> !WeightAccepted(v.weight)
    ensures "renalFunction" in errors <==> !RenalAccepted(v.renalFunction)
    ensures errors.Keys <= {"age", "sex", "weight", "renalFunction"}
  {
    var ageErrors := AgeErrors(v.age);
    var sexErrors := CheckOptional("sex", v.sex.Some?, SexAccepted(v.sex));
    var weightErrors := WeightErrors(v.weight);
    var renalErrors := CheckOptional("renalFunction", v.renalFunction.Some?, RenalAccepted(v.renalFunction));
    var errors := ageErrors + sexErrors + weightErrors + renalErrors;
    assert errors.Keys == ageErrors.Keys + sexErrors.Keys + weightErrors.Keys + renalErrors.Keys;
    errors
  }

  /** The profile an accepted form yields: each value converted to its type. */
  function Accepted(v: ProfileFormValues): (p: PatientProfile)
    requires AgeAccepted(v.age) && SexAccepted(v.sex) && WeightAccepted(v.weight) && RenalAccepted(v.renalFunction)
    ensures ValidProfile(p) && Carries(v, p)
  {
    PatientProfile(
      if v.age.Some? then Some(v.age.value.value.Floor) else None,
      if v.sex.Some? then ParseSex(v.sex.value) else None,
      if v.weight.Some? then Some(v.weight.value.value) else None,
      if v.renalFunction.Some? then ParseRenal(v.renalFunction.value) else None,
      v.otherConditions)
  }

  /**
   * `profileSchema`: each field is optional; a present age must be a
   * positive integer, a present weight positive, sex and renal function
   * members of their enums; other conditions may be any text.
   */
  function ValidateProfile(v: ProfileFormValues): (r: Result<PatientProfile, FieldErrors>)
    ensures r.Success? <==>
      AgeAccepted(v.age) && SexAccepted(v.sex) && WeightAccepted(v.weight) && RenalAccepted(v.renalFunction)
    ensures r.Success? ==> ValidProfile(r.value) && Carries(v, r.value)
    ensures r.Failure? ==> ("age" in r.error <==> !AgeAccepted(v.age))
    ensures r.Failure? ==> ("sex" in r.error <==> !SexAccepted(v.sex))
    ensures r.Failure? ==> ("weight" in r.error <==> !WeightAccepted(v.weight))
    ensures r.Failure? ==> ("renalFunction" in r.error <==> !RenalAccepted(v.renalFunction))
    ensures r.Failure? ==> r.error.Keys <= {"age", "sex", "weight", "renalFunction"}
  {
    var errors := ProfileErrors(v);
    if errors != map[] then
      Failure(errors)
    else
      assert "age" !in errors && "sex" !in errors && "weight" !in errors && "renalFunction" !in errors;
      Success(Accepted(v))
  }

  /**
   * The values the form starts from when it is opened on a profile: each
   * field pre-filled with the profile's value, or empty.
   */
  function FormValuesOf(profile: Option<PatientProfile>): (v: ProfileFormValues)
    ensures profile.None? ==> v == ProfileFormValues(None, None, None, None, None)
    ensures profile.Some? ==> Carries(v, profile.value)
  {
    if profile.None? then ProfileFormValues(None, None, None, None, None)
    else
      var p := profile.value;
      ProfileFormValues(
        if p.age.Some? then Some(Num(p.age.value as real)) else None,
        if p.sex.Some? then Some(SexName(p.sex.value)) else None,
        if p.weight.Some? then Some(Num(p.weight.value)) else None,
        if p.renalFunction.Some? then Some(RenalName(p.renalFunction.value)) else None,
        p.otherConditions)
  }

  /**
   * Saving a form opened on a valid profile without editing it gives the
   * same profile back; opened on no profile, it saves the empty profile.
   */
  lemma ReopenThenSave(profile: Option<PatientProfile>)
    requires profile.None? || ValidProfile(profile.value)
    ensures ValidateProfile(FormValuesOf(profile)) == Success(if profile.None? then EmptyProfile else profile.value)
  {
    var r := ValidateProfile(FormValuesOf(profile));
    if profile.Some? {
      var p := profile.value;
      if p.age.Some? {
        assert (p.age.value as real).Floor == p.age.value;
      }
      if p.sex.Some? {
        assert ParseSex(SexName(p.sex.value)) == Some(p.sex.value);
      }
      if p.renalFunction.Some? {
        assert ParseRenal(RenalName(p.renalFunction.value)) == Some(p.renalFunction.value);
      }
      assert r.Success?;
      assert r.value == p;
    }
  }

  /**
   * The age and weight inputs' change handler: an emptied input stores
   * `undefined`, anything else stores the input's numeric value.
   */
  function NumberInputChange(text: string, valueAsNumber: JsNumber): (stored: Option<JsNumber>)
    ensures stored.None? <==> text == ""
    ensures stored.Some? ==> stored.value == valueAsNumber
  {
    if text == "" then None else Some(valueAsNumber)
  }

  /**
   * Submitting the profile form: the schema runs first and, only when it
   * accepts, the session profile becomes the validated values; otherwise
   * the session profile is left as it was.
   */
  function SaveProfile(current: Option<PatientProfile>, v: ProfileFormValues): (next: Option<PatientProfile>)
    ensures ValidateProfile(v).Success? ==> next == Some(ValidateProfile(v).value)
    ensures ValidateProfile(v).Failure? ==> next == current
  {
    match ValidateProfile(v)
    case Success(p) => Some(p)
    case Failure(_) => current
  }

  /** Every profile the session ever holds is valid: saving keeps it so. */
  lemma SaveKeepsProfileValid(current: Option<PatientProfile>, v: ProfileFormValues)
    requires current.None? || ValidProfile(current.value)
    ensures var next := SaveProfile(current, v); next.None? || ValidProfile(next.value)
  {
  }

  /** Clearing the age input and saving leaves the age undefined, never zero. */
  lemma ClearedAgeIsUndefined(v: ProfileFormValues, valueAsNumber: JsNumber)
    requires v.age == NumberInputChange("", valueAsNumber)
    requires ValidateProfile(v).Success?
    ensures ValidateProfile(v).value.age == None
  {
  }
}

=== FILE: tool_state.dfy ===
/**
 * The submit step the four tools share: clear the result and show the
 * loading state, call the action, clear the loading state, then store
 * `response.data` or raise a destructive toast carrying `response.error`.
 */
module ToolState {
  import opened Wrappers
  import opened Actions

  /** A destructive toast: its title and the description it shows. */
  datatype Toast = Toast(title: string, description: Option<string>)

  /** What a tool remembers: the last result, whether a call is outstanding, the toasts raised. */
  datatype ToolState<+T> = ToolState(result: Option<T>, loading: bool, toasts: seq<Toast>)

  /** The tool as first shown: no result, not loading, no toast. */
  function Initial<T>(): ToolState<T> {
    ToolState(None, false, [])
  }

  /**
   * One press of the submit button.  `request` is what was sent to the
   * action (`None` when the form's schema refused the values and nothing
   * was sent); `pending` is the state while the call is outstanding and
   * `after` the state once the response has been handled.
   */
  datatype Submission<+In, +T> = Submission(request: Option<In>, pending: ToolState<T>, after: ToolState<T>)

  /** Before the call: loading on, previous result cleared. */
  function BeginSubmit<T>(s: ToolState<T>): (r: ToolState<T>)
    ensures r.loading && r.result.None? && r.toasts == s.toasts
  {
    ToolState(None, true, s.toasts)
  }

  /**
   * After the call: loading off; the data is stored when the response
   * succeeded with data (any object or array, even an empty one, is
   * truthy), otherwise a toast shows the response's error.
   */
  function FinishSubmit<T>(s: ToolState<T>, response: ActionResponse<T>, failureTitle: string): (r: ToolState<T>)
    ensures !r.loading
    ensures response.success && response.data.Some? ==> r.result == response.data && r.toasts == s.toasts
    ensures !(response.success && response.data.Some?) ==>
      r.result == s.result && r.toasts == s.toasts + [Toast(failureTitle, response.error)]
  {
    if response.success && response.data.Some? then
      ToolState(response.data, false, s.toasts)
    else
      ToolState(s.result, false, s.toasts + [Toast(failureTitle, response.error)])
  }

  /**
   * A submission whose request went out and got `response`: while pending
   * the result is cleared; afterwards it holds the data on success and is
   * still cleared on failure, when exactly one toast with the error was
   * added.
   */
  function Sent<In, T>(s: ToolState<T>, request: In, response: ActionResponse<T>, failureTitle: string): (sub: Submission<In, T>)
    requires WellFormed(response)
    ensures sub.request == Some(request)
    ensures sub.pending.loading && sub.pending.result.None?
    ensures !sub.after.loading
    ensures sub.after.result == response.data
    ensures response.success ==> sub.after.toasts == s.toasts
    ensures !response.success ==> sub.after.toasts == s.toasts + [Toast(failureTitle, response.error)]
  {
    var pending := BeginSubmit(s);
    Submission(Some(request), pending, FinishSubmit(pending, response, failureTitle))
  }

  /**
   * A submission whose call to the server action itself rejected (the
   * network failed, or the deployed server no longer has the action): the
   * `await` throws before loading is cleared, nothing catches it on the
   * client, so the tool stays loading, its button disabled, with no result
   * and no toast.
   */
  function CallRejected<In, T>(s: ToolState<T>, request: In): (sub: Submission<In, T>)
    ensures sub.request == Some(request)
    ensures sub.after.loading && sub.after.result.None?
    ensures sub.after.toasts == s.toasts
  {
    var pending := BeginSubmit(s);
    Submission(Some(request), pending, pending)
  }

  /**
   * From the tool as first shown, a delivered response settles the tool:
   * loading is off, and there is either the data and no toast, or no result
   * and exactly the one failure toast.
   */
  lemma FirstSubmissionSettles<In, T>(request: In, response: ActionResponse<T>, failureTitle: string)
    requires WellFormed(response)
    ensures var sub := Sent(Initial<T>(), request, response, failureTitle);
      && !sub.after.loading
      && (response.success ==> sub.after.result.Some? && sub.after.toasts == [])
      && (!response.success ==> sub.after.result.None? && sub.after.toasts == [Toast(failureTitle, response.error)])
  {
    var s := Initial<T>();
    assert s.toasts == [];
    assert s.toasts + [Toast(failureTitle, response.error)] == [Toast(failureTitle, response.error)];
  }

  /** A submission the schema refused: nothing is sent and nothing changes. */
  function Refused<In, T>(s: ToolState<T>): (sub: Submission<In, T>)
    ensures sub.request.None? && sub.pending == s && sub.after == s
  {
    Submission(None, s, s)
  }
}

=== FILE: wrappers.dfy ===
/** Option and Result, shared by every module. */
module Wrappers {

  /** An optional value: `None` plays the role of JavaScript's `undefined`. */
  datatype Option<+T> = None | Some(value: T)

  /** Outcome of a validation step: the parsed value or the errors found. */
  datatype Result<+T, +E> = Success(value: T) | Failure(error: E)
}
